=== FILE: README.md ===
# KNLMeansCL kernels in Dafny

KNLMeansCL is a non-local means denoiser that runs on OpenCL. Its seven device
kernels are a string in `KNLMeansCL/kernel.h`. This project models them, one work-item
at a time, as pure functions over `int` and `real`, with images as sequences.

For every search offset q the host runs the kernels in this order:

1. **nlmDistance** writes, per pixel, the weighted squared difference between the
   pixel and its partner, at `dim − |c − (dim − 1)|` per axis for c = x + q.x and
   c = y + q.y. Without reflection that is p + q + (1, 1).
2. **nlmHorizontal** and **nlmVertical** box-filter those distances over the
   (2S + 1)² patch. They use a tiled, separable sum that stages values in local
   memory. nlmVertical then turns the patch distance into a weight.
3. **nlmAccumulation** adds, per pixel, the weighted samples at p + q and p − q to
   the interleaved accumulator U2. It also keeps a running maximum of the weights
   in U5.

After all offsets, **nlmFinish** divides the accumulated sums by the accumulated
weights. It first adds the pixel's own value with the centre weight
NLM_WREF · U5.

**nlmPack** and **nlmUnpack** convert between the host's planes and the
normalised internal sample. The host formats are unorm float, 10-bit integer, and
16 bits stacked as a byte plane pair.

The macros the host compiles in are parameters here:

- VI_DIM_X and VI_DIM_Y become `w` and `h`.
- NLM_S becomes `s`.
- NLM_H becomes `strength` of `H2InvNorm`.
- NLM_WREF, NLM_D and the block sizes are plain parameters.
- NLM_TCLIP becomes a `bv32` word, dispatched with the same subset test as
  CHECK_FLAG.

Each file holds one module:

- `wrappers.dfy` (Option)
- `clip.dfy` (flags and branch selection)
- `frames.dfy` (images and the two OpenCL addressing modes)
- `pack.dfy`
- `distance.dfy`
- `tiles.dfy` (the tiled line sum shared by both passes)
- `weights.dfy`
- `separable.dfy` (both passes over a layer, and their composition)
- `ledger.dfy` (weighted-sum bookkeeping)
- `accumulation.dfy`
- `finish.dfy`

### Consequences of the code as written

- **Partner index in nlmDistance.** The code computes
  `x_pq = VI_DIM_X − |x + q.x − (VI_DIM_X − 1)|`. A reflection about the last
  column would be `dim − 1 − |c − (dim − 1)|`; the code's formula is one more.
  `Distance.MirrorIndex` proves its closed form: it is c + 1 below the last index and
  2·dim − 1 − c above it. Three consequences follow.
  - Inside the frame, the distance of p is taken against the pixel one step right
    and one step down of p + q.
  - The partner is outside the frame exactly when c = dim − 1, c ≤ −2 or
    c ≥ 2·dim (`Distance.PartnerInRangeIff`). For 0 ≤ q.x < VI_DIM_X, the pixel with
    x + q.x = VI_DIM_X − 1 has partner column VI_DIM_X
    (`Distance.LastPartnerOverruns`); for q.x ≤ −2, the pixels with
    x + q.x ≤ −2 have a negative partner column; for q.x > VI_DIM_X, the pixels
    with x + q.x ≥ 2·VI_DIM_X have partner column −1 or less. Both reads use
    CLK_ADDRESS_NONE.
  - nlmAccumulation weighs the sample at p + q by U4 at p and the sample at p − q by
    U4 at p − q. With the same q in both kernels, the term at p compares p with
    p + q + (1, 1) (`Distance.PlusOffsetPair`), and the term at p − q compares
    p − q with p + (1, 1) (`Distance.MinusOffsetPair`). Each weight therefore
    measures a pair one pixel off, along each axis, from the pair whose sample it
    weighs. The pairs line up when the host passes q − (1, 1) to nlmDistance
    and q to nlmAccumulation (`Distance.ShiftedOffsetPairs`). The box filter sums
    these per-pixel terms over the patch, so the same holds for the patches.

  `Distance.DistanceAt` therefore requires the partner to be in range. The model
  does not guess what the device returns there.
- **Border of the box filter.** nlmHorizontal and nlmVertical read with
  CLK_ADDRESS_CLAMP. Section 6.12.14.1 of the OpenCL 1.2 specification defines
  CLK_ADDRESS_CLAMP as returning the border colour, whose channels are 0, not the
  nearest edge sample. The model reads 0 outside the frame, and
  `Separable.PatchWeights` proves the resulting zero-border box filter.
- **Border of the accumulation.** nlmAccumulation also reads U1 at p + q and
  p − q with CLK_ADDRESS_CLAMP, so a partner outside the frame contributes the
  sample 0 (`Accumulation.OutsideSamplesAreZero`). That 0 is still weighed by U4
  read at p or at p − q. Near the border a flat frame is therefore pulled toward 0.
  `Finish.FinishKeepsFlatField` applies only where every weighed sample equals the
  frame's value.
- **Zero denominator.** nlmFinish divides by the accumulated weight plus
  wM = NLM_WREF · U5[gidx]. Nothing in the kernels guarantees wM > 0: that
  depends on the host's NLM_WREF and on the weights U5 has seen.
  `Finish.FinishPixel` therefore reports a zero denominator as its own outcome.
  `Finish.FinishIsWeightedAverage` assumes wM > 0.

## Model

| member | source | states |
|---|---|---|
| Clip.PackBranch | KNLMeansCL/kernel.h:341-389 | the if-else chain of nlmPack/nlmUnpack only ever selects one of the eight formats that have a branch |
| Clip.RefBranch | KNLMeansCL/kernel.h:87-124 | the reference chain selects a space only if CHECK_FLAG accepts that space's flag |
| Clip.PackBranchOfClip | KNLMeansCL/kernel.h:341-389 | on a flag word built from one extra flag, one type and one reference (lines 45-53), the pack chain selects exactly that format, and nothing for the four unsupported combinations (unorm or unsigned luma, unsigned chroma, stacked RGB) |
| Clip.RefBranchOfClip | KNLMeansCL/kernel.h:215-260 | on such a word the reference chain selects the clip's own space, whatever its type and extra flag |
| Pack.Stacked16 | KNLMeansCL/kernel.h:70-71 | NLM_16BIT_MSB·msb + NLM_16BIT_LSB·lsb is exactly (256·msb + lsb)/65535, and lies in [0, 1] for bytes |
| Pack.Pack | KNLMeansCL/kernel.h:341-389 | a sample is written iff the flags select a branch; it has one value per channel of the space, and integer host samples land in [0, 1] |
| Pack.SatUshort | KNLMeansCL/kernel.h:406 | convert_ushort_sat truncates toward zero into [0, 65535], giving 0 below 0 and 65535 at or above 65535 |
| Pack.Ushort | KNLMeansCL/kernel.h:452-454 | the non-saturating convert_ushort is defined only when the truncation fits 16 bits, and then truncates |
| Pack.Unpack | KNLMeansCL/kernel.h:404-458 | planes are written iff the flags select a branch; they have the branch's kind and channel count, stacked bytes lie in [0, 255] and 10-bit words in [0, 65535] |
| Pack.UnpackPack | KNLMeansCL/kernel.h:328-459 | over the reals, unpacking a packed pixel returns the host's planes exactly, for every format with a branch and all host samples of its depth (bytes 0..255, words 0..1023) |
| Pack.PackUnpack | KNLMeansCL/kernel.h:328-459 | for internal samples in [0, 1], pack after unpack is exact over the reals for unorm and otherwise rounds down by less than one step (1/1023 or 1/65535) |
| Distance.MirrorIndex | KNLMeansCL/kernel.h:83-84 | the partner index is c + 1 for c ≤ dim − 1 and 2·dim − 1 − c for c ≥ dim − 1 |
| Distance.PartnerInRangeIff | KNLMeansCL/kernel.h:83-85 | the partner index is inside [0, dim) exactly when c ∈ [−1, dim − 2] or c ∈ [dim, 2·dim − 1] |
| Distance.LastPartnerOverruns | KNLMeansCL/kernel.h:83-84 | for every 0 ≤ q.x < dim, the in-frame pixel x = dim − 1 − q.x has partner dim, outside the frame |
| Distance.PixelDistanceSymmetric | KNLMeansCL/kernel.h:87-122 | in every reference space the distance is symmetric in the two samples |
| Distance.PixelDistanceSelf | KNLMeansCL/kernel.h:87-122 | the distance is 0 when the samples agree on the space's channels (channel 0 for luma, 0-1 for chroma, 0-2 otherwise), whatever the other channels hold |
| Distance.PixelDistanceNonNegative | KNLMeansCL/kernel.h:87-122 | the distance is ≥ 0 for luma, chroma and YUV, and for RGB when both red samples lie in [0, 1] |
| Distance.DistanceAt | KNLMeansCL/kernel.h:74-125 | a work-item writes iff it is in the frame and the flags name a space; its value is the distance to the partner of layer t + q.z, at column x + q.x + 1 when x + q.x ≤ VI_DIM_X − 1 and at 2·VI_DIM_X − 1 − (x + q.x) otherwise (the same for rows), and it is non-negative under the RGB red-range condition |
| Distance.PlusOffsetPair | KNLMeansCL/kernel.h:83-85 | the term nlmAccumulation reads as u4 (line 212), at p, compares p with p + q + (1, 1) |
| Distance.MinusOffsetPair | KNLMeansCL/kernel.h:83-85 | the term nlmAccumulation reads as u4_mq (line 213), at p − q, compares p − q with p + (1, 1), not with p |
| Distance.ShiftedOffsetPairs | KNLMeansCL/kernel.h:83-85 | with the offset q − (1, 1), the terms at p and at p − q that lines 212-213 read compare p with p + q and p − q with p |
| Tiles.StagedSlotInjective | KNLMeansCL/kernel.h:136-144 | two staging writes of a work-group hit the same local slot only if they are the same write |
| Tiles.StagedSlotOnto | KNLMeansCL/kernel.h:130-144 | every slot of the (HRZ_RESULT + 2)·block local buffer is written by some staging step |
| Tiles.StageTile | KNLMeansCL/kernel.h:130-144 | after the fill phase, local slot k holds the input at column x0 + k, with x0 = (g·HRZ_RESULT − 1)·block, read as 0 outside the line |
| Tiles.WindowReadsStaged | KNLMeansCL/kernel.h:148-152 | when NLM_S ≤ block, every read of the window loop hits a staged slot, and that slot holds the column of the output plus j |
| Tiles.TileColumnOnto | KNLMeansCL/kernel.h:131 | every column is output i of work-item lx of some group g |
| Tiles.TileColumnInjective | KNLMeansCL/kernel.h:131 | no column is the output of two (group, i, lx) triples, so each column is written once |
| Tiles.WindowFromBuffer | KNLMeansCL/kernel.h:150-152 | the loop over j = −S..S sums the 2S + 1 input values centred on the output column |
| Tiles.WorkItemOutputs | KNLMeansCL/kernel.h:148-155 | one work-item's read phase gives each of its outputs inside the line its window sum, stops at the first output past the line, and writes only columns of its group |
| Tiles.GroupOutputs | KNLMeansCL/kernel.h:146-155 | after the barrier the group gives every one of its columns inside the line its window sum and leaves every other column as it was |
| Tiles.SumLine | KNLMeansCL/kernel.h:127-156 | the tiled pass gives every column of the line the sum of the 2S + 1 columns around it, with 0 outside the line, when NLM_S is at most the block size |
| Separable.HorizontalPass | KNLMeansCL/kernel.h:127-156 | every in-frame pixel gets its horizontal window sum, when NLM_S is at most the block size |
| Separable.ColumnSums | KNLMeansCL/kernel.h:158-184 | the vertical tiling gives every in-frame pixel its vertical window sum, when NLM_S is at most the block size |
| Separable.VerticalPass | KNLMeansCL/kernel.h:158-197 | every in-frame pixel gets the weight of its vertical window sum scaled by NLM_H2_INV_NORM, when NLM_S is at most the block size |
| Separable.VerticalOfHorizontal | KNLMeansCL/kernel.h:179-183 | the vertical window sum of the horizontal sums is the sum over the (2S + 1)² patch, with 0 outside the frame |
| Separable.PatchWeights | KNLMeansCL/kernel.h:127-197 | nlmVertical after nlmHorizontal gives every in-frame pixel the weight of its (2S + 1)² zero-border patch sum, when NLM_S is at most the block size |
| Weights.H2InvNorm | KNLMeansCL/kernel.h:67-69 | NLM_H2_INV_NORM = 255²/(H²·(2S + 1)²) is positive for every H ≠ 0 |
| Weights.Fdim | KNLMeansCL/kernel.h:189 | fdim(a, b) is non-negative, at least a − b, and either 0 or a − b |
| Weights.BisquareBounds | KNLMeansCL/kernel.h:188-193 | for a non-negative patch sum and a positive scale, every bisquare weight lies in [0, 1] |
| Weights.BisquareAtZero | KNLMeansCL/kernel.h:188-193 | a patch sum of 0 gets weight 1 |
| Weights.BisquareCutoff | KNLMeansCL/kernel.h:188-193 | the weight is 0 exactly when the scaled distance is at least 1 |
| Weights.BisquareMonotone | KNLMeansCL/kernel.h:188-193 | with a positive scale, a larger patch sum never gets a larger weight |
| Ledger.TotalWeightNonNegative | KNLMeansCL/kernel.h:223 | the accumulated weight of non-negative weights is non-negative |
| Ledger.WeightedSumBounds | KNLMeansCL/kernel.h:221-223 | a weighted sum with non-negative weights lies between lo·total and hi·total when all weighed values lie in [lo, hi] |
| Ledger.AppendTerms | KNLMeansCL/kernel.h:221-223 | adding two terms adds their weighted values to every channel sum and their weights to the total |
| Accumulation.Stride | KNLMeansCL/kernel.h:219-252 | U2 holds 2 floats per pixel for luma and 4 for every other space, always more than the channel count |
| Accumulation.SlotForm | KNLMeansCL/kernel.h:219-229 | mad24(y, k·VI_DIM_X, mul24(k, x)) + c equals k·gidx + c, the index nlmFinish reads through its float2/float4 view |
| Accumulation.SlotInRange | KNLMeansCL/kernel.h:219-252 | every slot of an in-frame pixel lies in [0, k·VI_DIM_X·VI_DIM_Y) |
| Accumulation.SlotInjective | KNLMeansCL/kernel.h:219-252 | distinct pixels, or distinct slots of one pixel, never share a U2 index |
| Accumulation.SlotOwner | KNLMeansCL/kernel.h:219-252 | the slot of a pixel belongs to that pixel, at that lane |
| Accumulation.OwnerSlot | KNLMeansCL/kernel.h:219-252 | every index of U2 is a slot of an in-frame pixel |
| Accumulation.IndicesFit | KNLMeansCL/kernel.h:210-252 | when 4·VI_DIM_X and VI_DIM_Y fit the 24-bit mad24 operands and the buffer fits a 32-bit int, every index the kernel forms is a non-negative 32-bit int |
| Accumulation.Fmax | KNLMeansCL/kernel.h:214 | fmax is at least both arguments and equal to one of them |
| Accumulation.RaiseU5 | KNLMeansCL/kernel.h:212-214 | U5 at the pixel never decreases, ends at least u4 and u4_mq, takes one of the three values, and no other entry changes |
| Accumulation.AddAt | KNLMeansCL/kernel.h:221-259 | a run of `+=` adds each gain to its own index and leaves every other index unchanged |
| Accumulation.AccumulateU2 | KNLMeansCL/kernel.h:216-260 | each channel slot of the pixel gains u4·u1_pq + u4_mq·u1_mq, the weight slot gains u4 + u4_mq, and every other index of U2 is unchanged |
| Accumulation.AccumulatePixel | KNLMeansCL/kernel.h:199-263 | outside the frame nothing changes; inside it U5 is raised, and U2 is updated iff the flags name a space |
| Accumulation.AccumulateAllClosedForm | KNLMeansCL/kernel.h:199-263 | a dispatch in which no pixel runs twice ends in the closed form: each pixel that ran has its gains added once and its U5 entry raised once |
| Accumulation.OrderIndependent | KNLMeansCL/kernel.h:199-263 | two dispatches over the same pixels in different orders give the same U2 and U5 |
| Accumulation.ZeroRecordsNothing | KNLMeansCL/kernel.h:221-223 | a cleared U2 records the empty ledger at every pixel |
| Accumulation.AccumulateExtendsLedger | KNLMeansCL/kernel.h:216-260 | accumulating a pixel extends its ledger by (u4, sample at p + q) and (u4_mq, sample at p − q) |
| Accumulation.AccumulateKeepsOtherLedgers | KNLMeansCL/kernel.h:216-260 | accumulating a pixel leaves the ledger of every other pixel as it was |
| Finish.FinishPixel | KNLMeansCL/kernel.h:265-326 | a work-item writes nothing iff it is outside the frame or the flags name no space; a written float4 has 0 beyond the space's channels |
| Finish.FinishChannel | KNLMeansCL/kernel.h:277-323 | when U2 records ledger l at the pixel and the ledger's total weight plus wM is non-zero, the pixel is written and channel c is (weighted sum of l + wM·u1.c)/(total weight of l + wM) |
| Finish.FinishIsWeightedAverage | KNLMeansCL/kernel.h:277-323 | if U2 records non-negative weights and wM > 0, the denominator is positive, the pixel is written, and each channel lies between any bounds of the weighed samples and the centre value |
| Finish.FinishKeepsFlatField | KNLMeansCL/kernel.h:277-323 | when every sample the pixel's ledger weighs and the pixel's own value equal v in channel c, the pixel is written with channel c equal to v |
| Accumulation.OutsideSamplesAreZero | KNLMeansCL/kernel.h:207-219 | when p + q or p − q lies outside the frame, the sample nlmAccumulation weighs there reads 0 in every channel |

## Left out

- Float rounding: values are `real`. native_divide, native_exp and float32
  arithmetic are not modelled, so results are exact rational values and bit
  equality with the device is not claimed.
- The Welsch weight native_exp(−t) (KNLMeansCL/kernel.h:186-187): Dafny has no
  exponential, so `Weights.WeightMode` has only the three bisquare settings. The
  fall-through value 0 for an unknown NLM_WMODE is also not modelled.
- Barriers and work-group concurrency (KNLMeansCL/kernel.h:146, 177): the fill
  phase of a group runs before its read phase, work-item after work-item.
- Work-item dispatch: `get_global_id`, `get_group_id` and `get_local_id` become
  loop indices or parameters. A layer of an image array is a sequence, and the
  layer index of a read is clamped to the existing layers, as image arrays do.
- Pack.UnpackPack: the round trip is exact over the reals only. In float32,
  NLM_16BIT_MSB and NLM_16BIT_LSB (KNLMeansCL/kernel.h:70-71) round below
  256/65535 and 1/65535, so the rescaled word can fall just below an integer, and
  convert_ushort_sat truncates it one lower. Stacked 16-bit samples can therefore
  come back one lower in the device's arithmetic.
- Pack.PackUnpack: the unorm round trip is exact over the reals only. The
  host image's own conversion between normalised floats and integers, and float
  rounding, are not modelled, so bit-exactness is not claimed.
- The kernel and memory index enums (KNLMeansCL/kernel.h:27-43): host plumbing.
- Reads with CLK_ADDRESS_NONE are undefined outside the frame. nlmDistance and
  nlmFinish therefore require in-range coordinates. nlmPack and nlmUnpack are
  modelled for one in-frame pixel; their frame guard belongs to the dispatch.
- The 24/32-bit index arithmetic of mad24 and mul24 is computed over unbounded
  integers. `Accumulation.IndicesFit` states the frame sizes for which the two
  agree.
- Tiles.SumLine, Separable.HorizontalPass, Separable.ColumnSums,
  Separable.VerticalPass and Separable.PatchWeights require NLM_S to be at most
  the block size. For a larger NLM_S the window reads at KNLMeansCL/kernel.h:152 and 183
  fall outside the staged slots (below slot 0 for the first work-item), so the
  kernels' result there is not modelled.
- Separable.VerticalPass: the vertical pass is modelled as the column sums
  followed by the weight, not as a literal weighting inside the tile loop. Its
  tile index arithmetic is the horizontal one with the axes swapped
  (`Tiles.SumLine` with one slot of padding).

=== FILE: accumulation.dfy ===
/** nlmAccumulation (KNLMeansCL/kernel.h:199-263): for one search offset q, every
    pixel p adds the weighted samples at p + q and p - q to its slots of the
    interleaved accumulator U2, and keeps in U5 the largest weight seen so far. */
module Accumulation {
  import opened Wrappers
  import opened Clip
  import opened Frames
  import opened Tiles
  import opened Ledger

  /** The work-item of global id (x, y). */
  datatype Pixel = Pixel(x: nat, y: nat)

  /** The arguments all work-items of one dispatch share: the clip flags, the
      images U1 and U4, the layer NLM_D, the offset q and VI_DIM_X / VI_DIM_Y. */
  datatype Dispatch = Dispatch(tclip: bv32, u1: Volume, u4: Field, d: int, q: Offset, w: nat, h: nat)

  /** The two global buffers the kernel updates. */
  datatype Buffers = Buffers(u2: seq<real>, u5: seq<real>)

  /** The floats U2 holds per pixel: float2 for luma, float4 otherwise. */
  function Stride(r: ClipRef): (k: nat)
    ensures Channels(r) < k
    ensures k == 2 <==> r == Luma
    ensures r != Luma ==> k == 4
  {
    if r == Luma then 2 else 4
  }

  /** a * b, written as repeated addition: the products of the kernel's index
      arithmetic go through Mul, and MulIsProduct is the one place that relates
      them to `*`, so every fact about an index is stated by a lemma below. */
  function Mul(a: nat, b: nat): nat
    decreases a
  {
    if a == 0 then 0 else Mul(a - 1, b) + b
  }

  lemma {:induction false} MulIsProduct(a: nat, b: nat)
    ensures Mul(a, b) == a * b
    decreases a
  {
    if a > 0 {
      MulIsProduct(a - 1, b);
    }
  }

  /** mad24(a, b, c): a * b + c (the 24-bit operand range is IndexFits). */
  function Mad24(a: nat, b: nat, c: nat): nat {
    Mul(a, b) + c
  }

  /** The floats of one image row of U2. */
  function RowFloats(r: ClipRef, w: nat): nat {
    Mul(Stride(r), w)
  }

  /** The number of floats of U5 and of U2. */
  function U5Size(w: nat, h: nat): nat {
    Mul(h, w)
  }

  function U2Size(r: ClipRef, w: nat, h: nat): nat {
    Mul(h, RowFloats(r, w))
  }

  /** gidx = mad24(y, VI_DIM_X, x). */
  function PixelIndex(w: nat, x: nat, y: nat): nat {
    Mad24(y, w, x)
  }

  /** x_idx = mad24(y, k * VI_DIM_X, mul24(k, x)) for stride k: the first U2 index
      of pixel (x, y). */
  function Base(r: ClipRef, w: nat, x: nat, y: nat): nat {
    Mad24(y, RowFloats(r, w), Mul(Stride(r), x))
  }

  /** The U2 index of slot c of pixel (x, y). Slots c < Channels(r) hold channels,
      slot Channels(r) the weight. */
  function Slot(r: ClipRef, w: nat, x: nat, y: nat, c: nat): nat {
    Base(r, w, x, y) + c
  }

  /** The pixel that U5 index g belongs to. */
  function PixelOf(w: nat, g: nat): Pixel
    requires w > 0
  {
    Pixel(g % w, g / w)
  }

  /** The pixel that U2 index i belongs to, and which of its slots i is. */
  function Owner(r: ClipRef, w: nat, i: nat): Pixel
    requires w > 0
  {
    PixelOf(w, i / Stride(r))
  }

  function Lane(r: ClipRef, i: nat): nat {
    i % Stride(r)
  }

  /** mad24 multiplies 24-bit operands and the indices are 32-bit ints: the largest
      operands (4 * VI_DIM_X, y) fit in 24 signed bits and every index in 31. */
  predicate IndexFits(w: nat, h: nat) {
    4 * w < 0x80_0000 && h <= 0x80_0000 && Mul(h, 4 * w) < 0x8000_0000
  }

  /** U5 has one float per pixel and U2 one float2 or float4 per pixel. */
  predicate Sized(k: Dispatch, b: Buffers) {
    |b.u5| == U5Size(k.w, k.h) &&
    (RefBranch(k.tclip).Some? ==> |b.u2| == U2Size(RefBranch(k.tclip).value, k.w, k.h))
  }

  /** u4: the weight of p, read at layer NLM_D. */
  function Centre(k: Dispatch, x: int, y: int): real {
    FieldAt(k.u4, x, y, k.d)
  }

  /** u4_mq: the weight stored at p - q. */
  function WeightBehind(k: Dispatch, x: int, y: int): real {
    FieldAt(k.u4, x - k.q.x, y - k.q.y, k.d - k.q.z)
  }

  /** u1_pq: the sample at p + q. */
  function Ahead(k: Dispatch, x: int, y: int): Sample {
    PixelAt(k.u1, x + k.q.x, y + k.q.y, k.d + k.q.z)
  }

  /** u1_mq: the sample at p - q. */
  function Behind(k: Dispatch, x: int, y: int): Sample {
    PixelAt(k.u1, x - k.q.x, y - k.q.y, k.d - k.q.z)
  }

  /** Near the border p + q or p - q leaves the frame; CLK_ADDRESS_CLAMP then reads
      the border colour, so the sample weighed there is 0 in every channel. */
  lemma OutsideSamplesAreZero(k: Dispatch, x: int, y: int, c: nat)
    requires Shaped(k.u1, k.w, k.h)
    ensures !(0 <= x + k.q.x < k.w && 0 <= y + k.q.y < k.h) ==> Channel(Ahead(k, x, y), c) == 0.0
    ensures !(0 <= x - k.q.x < k.w && 0 <= y - k.q.y < k.h) ==> Channel(Behind(k, x, y), c) == 0.0
  {
  }

  /** fmax. */
  function Fmax(a: real, b: real): (m: real)
    ensures m >= a && m >= b
    ensures m == a || m == b
  {
    if a >= b then a else b
  }

  /** What pixel (x, y) adds to its slot c. */
  function Gain(k: Dispatch, r: ClipRef, x: int, y: int, c: nat): real {
    if c < Channels(r) then Centre(k, x, y) * Channel(Ahead(k, x, y), c) + WeightBehind(k, x, y) * Channel(Behind(k, x, y), c)
    else Centre(k, x, y) + WeightBehind(k, x, y)
  }

  function Gains(k: Dispatch, r: ClipRef, x: int, y: int): (g: seq<real>)
    ensures |g| == Channels(r) + 1
    ensures forall c | 0 <= c <= Channels(r) :: g[c] == Gain(k, r, x, y, c)
  {
    seq(Channels(r) + 1, c requires 0 <= c <= Channels(r) => Gain(k, r, x, y, c))
  }

  /** u with g[j] added to u[base + j], one `+=` at a time. */
  function AddAt(u: seq<real>, base: nat, g: seq<real>): (v: seq<real>)
    requires base + |g| <= |u|
    ensures |v| == |u|
    ensures forall i | 0 <= i < |u| && !(base <= i < base + |g|) :: v[i] == u[i]
    ensures forall j | 0 <= j < |g| :: v[base + j] == u[base + j] + g[j]
    decreases |g|
  {
    if |g| == 0 then u else AddAt(u[base := u[base] + g[0]], base + 1, g[1..])
  }

  /** The index functions of pixel (x, y) as products. */
  lemma IndexProducts(r: ClipRef, w: nat, x: nat, y: nat)
    ensures PixelIndex(w, x, y) == y * w + x
    ensures RowFloats(r, w) == Stride(r) * w
    ensures Base(r, w, x, y) == y * (Stride(r) * w) + Stride(r) * x
  {
    MulIsProduct(y, w);
    MulIsProduct(Stride(r), w);
    MulIsProduct(y, RowFloats(r, w));
    MulIsProduct(Stride(r), x);
  }

  /** The buffer sizes as products. */
  lemma SizeProducts(r: ClipRef, w: nat, h: nat)
    ensures U5Size(w, h) == h * w
    ensures U2Size(r, w, h) == h * (Stride(r) * w)
  {
    MulIsProduct(h, w);
    MulIsProduct(Stride(r), w);
    MulIsProduct(h, RowFloats(r, w));
  }

  /** The U2 index nlmAccumulation forms is the one nlmFinish reads through its
      float2/float4 view of U2: element gidx, component c. */
  lemma SlotForm(r: ClipRef, w: nat, x: nat, y: nat, c: nat)
    ensures Slot(r, w, x, y, c) == Mul(PixelIndex(w, x, y), Stride(r)) + c
  {
    var k := Stride(r);
    IndexProducts(r, w, x, y);
    MulIsProduct(PixelIndex(w, x, y), k);
    RowMajor(y, w, x, k);
  }

  /** (y * w + x) * k regrouped as y rows of k * w floats and x pixels of k. */
  lemma RowMajor(y: int, w: int, x: int, k: int)
    ensures (y * w + x) * k == y * (k * w) + k * x
  {
    assert (y * w + x) * k == (y * w) * k + x * k;
    assert (y * w) * k == y * (k * w);
  }

  /** Every slot of an in-frame pixel lies inside U2. */
  lemma SlotInRange(r: ClipRef, w: nat, h: nat, x: nat, y: nat, c: nat)
    requires x < w && y < h && c < Stride(r)
    ensures Slot(r, w, x, y, c) < U2Size(r, w, h)
  {
    var k := Stride(r);
    var kw := k * w;
    IndexProducts(r, w, x, y);
    SizeProducts(r, w, h);
    MulMonotone(x + 1, w, k);
    assert k * x + k <= kw;
    MulMonotone(y + 1, h, kw);
    assert (y + 1) * kw == y * kw + kw;
  }

  /** Distinct pixels, or distinct slots of one pixel, never share a U2 index. */
  lemma SlotInjective(r: ClipRef, w: nat, x: nat, y: nat, c: nat, x': nat, y': nat, c': nat)
    requires x < w && x' < w && c < Stride(r) && c' < Stride(r)
    requires Slot(r, w, x, y, c) == Slot(r, w, x', y', c')
    ensures x == x' && y == y' && c == c'
  {
    SlotForm(r, w, x, y, c);
    SlotForm(r, w, x', y', c');
    MulIsProduct(PixelIndex(w, x, y), Stride(r));
    MulIsProduct(PixelIndex(w, x', y'), Stride(r));
    LexUnique(PixelIndex(w, x, y), c, PixelIndex(w, x', y'), c', Stride(r));
    IndexProducts(r, w, x, y);
    IndexProducts(r, w, x', y');
    LexUnique(y, x, y', x', w);
  }

  /** A slot belongs to the pixel whose slot it is. */
  lemma SlotOwner(r: ClipRef, w: nat, x: nat, y: nat, c: nat)
    requires x < w && c < Stride(r)
    ensures Owner(r, w, Slot(r, w, x, y, c)) == Pixel(x, y)
    ensures Lane(r, Slot(r, w, x, y, c)) == c
  {
    var i := Slot(r, w, x, y, c);
    var k := Stride(r);
    var g := PixelIndex(w, x, y);
    SlotForm(r, w, x, y, c);
    MulIsProduct(g, k);
    DivMod(i, k);
    LexUnique(i / k, i % k, g, c, k);
    IndexOfPixel(w, x, y);
  }

  /** Every index of U2 is a slot of its owner, which is in the frame. */
  lemma OwnerSlot(r: ClipRef, w: nat, h: nat, i: nat)
    requires w > 0 && i < U2Size(r, w, h)
    ensures Owner(r, w, i).x < w && Owner(r, w, i).y < h
    ensures Slot(r, w, Owner(r, w, i).x, Owner(r, w, i).y, Lane(r, i)) == i
  {
    var k := Stride(r);
    var g := i / k;
    DivMod(i, k);
    SizeProducts(r, w, h);
    Regroup(h, k, w);
    QuotientBound(i, k, h * w);
    MulIsProduct(h, w);
    PixelOfIndex(w, h, g);
    SlotForm(r, w, g % w, g / w, i % k);
    MulIsProduct(g, k);
  }

  lemma Regroup(h: int, k: int, w: int)
    ensures h * (k * w) == (h * w) * k
  {
  }

  lemma QuotientBound(i: nat, k: nat, n: nat)
    requires k > 0 && i < n * k
    ensures i / k < n
  {
    DivMod(i, k);
    if i / k >= n {
      MulMonotone(n, i / k, k);
    }
  }

  /** Every index of U5 is the index of its pixel, which is in the frame. */
  lemma PixelOfIndex(w: nat, h: nat, g: nat)
    requires w > 0 && g < U5Size(w, h)
    ensures PixelOf(w, g).x < w && PixelOf(w, g).y < h
    ensures PixelIndex(w, PixelOf(w, g).x, PixelOf(w, g).y) == g
  {
    MulIsProduct(h, w);
    MulIsProduct(g / w, w);
    DivMod(g, w);
    if g / w >= h {
      MulMonotone(h, g / w, w);
    }
  }

  /** The index of a pixel leads back to the pixel. */
  lemma IndexOfPixel(w: nat, x: nat, y: nat)
    requires x < w
    ensures PixelOf(w, PixelIndex(w, x, y)) == Pixel(x, y)
  {
    var g := PixelIndex(w, x, y);
    MulIsProduct(y, w);
    DivMod(g, w);
    LexUnique(g / w, g % w, y, x, w);
  }

  /** Every in-frame pixel has an index inside U5. */
  lemma PixelIndexInRange(w: nat, h: nat, x: nat, y: nat)
    requires x < w && y < h
    ensures PixelIndex(w, x, y) < U5Size(w, h)
  {
    MulIsProduct(y, w);
    MulIsProduct(h, w);
    MulMonotone(y, h - 1, w);
  }

  /** Within the mad24 operand range every index the kernel forms is a
      non-negative 32-bit int, so the unbounded arithmetic of this model agrees
      with the kernel's. */
  lemma IndicesFit(r: ClipRef, w: nat, h: nat, x: nat, y: nat, c: nat)
    requires IndexFits(w, h) && x < w && y < h && c < Stride(r)
    ensures RowFloats(r, w) < 0x80_0000 && y < 0x80_0000 && Mul(Stride(r), x) < 0x80_0000
    ensures PixelIndex(w, x, y) < 0x8000_0000 && Slot(r, w, x, y, c) < 0x8000_0000
  {
    SlotInRange(r, w, h, x, y, c);
    PixelIndexInRange(w, h, x, y);
    IndexProducts(r, w, x, y);
    SizeProducts(r, w, h);
    MulIsProduct(h, 4 * w);
    MulMonotone(Stride(r), 4, w);
    MulMonotone(Stride(r), 4, x);
    MulMonotone(Stride(r) * w, 4 * w, h);
    assert h * w <= h * (4 * w) by {
      MulMonotone(1, 4, w);
      MulMonotone(w, 4 * w, h);
    }
  }

  /** The U5 update of pixel (x, y): U5[gidx] = fmax(U5[gidx], fmax(u4, u4_mq)). The
      running maximum never decreases, covers both weights, takes one of the three
      values, and no other pixel's entry changes. */
  function RaiseU5(k: Dispatch, u5: seq<real>, x: nat, y: nat): (v: seq<real>)
    requires |u5| == U5Size(k.w, k.h) && x < k.w && y < k.h
    ensures |v| == |u5| && PixelIndex(k.w, x, y) < |u5|
    ensures v[PixelIndex(k.w, x, y)] >= u5[PixelIndex(k.w, x, y)]
    ensures v[PixelIndex(k.w, x, y)] >= Centre(k, x, y) && v[PixelIndex(k.w, x, y)] >= WeightBehind(k, x, y)
    ensures v[PixelIndex(k.w, x, y)] in {u5[PixelIndex(k.w, x, y)], Centre(k, x, y), WeightBehind(k, x, y)}
    ensures forall j | 0 <= j < |u5| && j != PixelIndex(k.w, x, y) :: v[j] == u5[j]
  {
    PixelIndexInRange(k.w, k.h, x, y);
    var g := PixelIndex(k.w, x, y);
    u5[g := Fmax(u5[g], Fmax(Centre(k, x, y), WeightBehind(k, x, y)))]
  }

  /** The U2 update of pixel (x, y) in reference space r: each channel slot gains
      u4 * u1_pq + u4_mq * u1_mq, the weight slot gains u4 + u4_mq, and every other
      index of U2 keeps its value. */
  function AccumulateU2(k: Dispatch, r: ClipRef, u2: seq<real>, x: nat, y: nat): (v: seq<real>)
    requires |u2| == U2Size(r, k.w, k.h) && x < k.w && y < k.h
    ensures |v| == |u2| && Slot(r, k.w, x, y, Channels(r)) < |u2|
    ensures forall c | 0 <= c <= Channels(r) :: v[Slot(r, k.w, x, y, c)] == u2[Slot(r, k.w, x, y, c)] + Gain(k, r, x, y, c)
    ensures forall i | 0 <= i < |u2| && !(Slot(r, k.w, x, y, 0) <= i <= Slot(r, k.w, x, y, Channels(r))) :: v[i] == u2[i]
  {
    SlotInRange(r, k.w, k.h, x, y, Channels(r));
    AddAt(u2, Slot(r, k.w, x, y, 0), Gains(k, r, x, y))
  }

  /** One work-item of nlmAccumulation: outside the frame it returns at once; inside
      it raises U5 and, when the flags name a reference space, adds to U2. */
  function AccumulatePixel(k: Dispatch, b: Buffers, x: nat, y: nat): (b': Buffers)
    requires Sized(k, b)
    ensures Sized(k, b')
    ensures x >= k.w || y >= k.h ==> b' == b
    ensures x < k.w && y < k.h ==> b'.u5 == RaiseU5(k, b.u5, x, y)
    ensures RefBranch(k.tclip).None? ==> b'.u2 == b.u2
    ensures x < k.w && y < k.h && RefBranch(k.tclip).Some? ==>
              b'.u2 == AccumulateU2(k, RefBranch(k.tclip).value, b.u2, x, y)
  {
    if x >= k.w || y >= k.h then b
    else
      var u5 := RaiseU5(k, b.u5, x, y);
      match RefBranch(k.tclip)
      case None => Buffers(b.u2, u5)
      case Some(r) => Buffers(AccumulateU2(k, r, b.u2, x, y), u5)
  }

  /** One dispatch: the work-items run one after another in the given order. */
  function AccumulateAll(k: Dispatch, b: Buffers, order: seq<Pixel>): (b': Buffers)
    requires Sized(k, b)
    ensures Sized(k, b')
    decreases |order|
  {
    if |order| == 0 then b else AccumulateAll(k, AccumulatePixel(k, b, order[0].x, order[0].y), order[1..])
  }

  /** Each work-item has its own global id. */
  predicate Distinct(order: seq<Pixel>) {
    forall i, j | 0 <= i < j < |order| :: order[i] != order[j]
  }

  /** The pixels of an order. */
  function Ran(order: seq<Pixel>): set<Pixel> {
    set p | p in order
  }

  /** U2 index i after every pixel of `done` has run once. */
  function ExpectedU2(k: Dispatch, r: ClipRef, u2: seq<real>, done: set<Pixel>, i: nat): real
    requires k.w > 0 && i < |u2|
  {
    var p := Owner(r, k.w, i);
    if p in done && Lane(r, i) <= Channels(r) then u2[i] + Gain(k, r, p.x, p.y, Lane(r, i)) else u2[i]
  }

  /** U5 index g after every pixel of `done` has run once. */
  function ExpectedU5(k: Dispatch, u5: seq<real>, done: set<Pixel>, g: nat): real
    requires k.w > 0 && g < |u5|
  {
    var p := PixelOf(k.w, g);
    if p in done then Fmax(u5[g], Fmax(Centre(k, p.x, p.y), WeightBehind(k, p.x, p.y))) else u5[g]
  }

  /** The buffers after every pixel of `done` has run once, in any order. */
  function Expected(k: Dispatch, b: Buffers, done: set<Pixel>): Buffers
    requires k.w > 0
  {
    var u2 := match RefBranch(k.tclip)
      case None => b.u2
      case Some(r) => seq(|b.u2|, i requires 0 <= i < |b.u2| => ExpectedU2(k, r, b.u2, done, i));
    Buffers(u2, seq(|b.u5|, g requires 0 <= g < |b.u5| => ExpectedU5(k, b.u5, done, g)))
  }

  lemma StepU5At(k: Dispatch, u5: seq<real>, done: set<Pixel>, p: Pixel, g: nat)
    requires k.w > 0 && |u5| == U5Size(k.w, k.h) && p !in done && g < |u5|
    ensures p.x < k.w && p.y < k.h ==>
              ExpectedU5(k, RaiseU5(k, u5, p.x, p.y), done, g) == ExpectedU5(k, u5, done + {p}, g)
    ensures !(p.x < k.w && p.y < k.h) ==> ExpectedU5(k, u5, done, g) == ExpectedU5(k, u5, done + {p}, g)
  {
    PixelOfIndex(k.w, k.h, g);
    if p.x < k.w && p.y < k.h {
      IndexOfPixel(k.w, p.x, p.y);
    }
  }

  /** What AccumulateU2 of pixel p does to U2 index i: a slot of p up to the weight
      slot gains its gain, any other index keeps its value. */
  lemma AccumulateU2At(k: Dispatch, r: ClipRef, u2: seq<real>, p: Pixel, i: nat)
    requires k.w > 0 && |u2| == U2Size(r, k.w, k.h) && p.x < k.w && p.y < k.h && i < |u2|
    ensures Owner(r, k.w, i) == p && Lane(r, i) <= Channels(r) ==>
              AccumulateU2(k, r, u2, p.x, p.y)[i] == u2[i] + Gain(k, r, p.x, p.y, Lane(r, i))
    ensures !(Owner(r, k.w, i) == p && Lane(r, i) <= Channels(r)) ==>
              AccumulateU2(k, r, u2, p.x, p.y)[i] == u2[i]
  {
    OwnerSlot(r, k.w, k.h, i);
    var lo, hi := Slot(r, k.w, p.x, p.y, 0), Slot(r, k.w, p.x, p.y, Channels(r));
    if lo <= i <= hi {
      SlotOwner(r, k.w, p.x, p.y, i - lo);
    }
  }

  /** The expected value of index i moves from `done` to `done` plus p exactly by
      what p adds there. */
  lemma StepU2Value(k: Dispatch, r: ClipRef, u2: seq<real>, v: seq<real>, done: set<Pixel>, p: Pixel, i: nat)
    requires k.w > 0 && i < |u2| == |v| && p !in done
    requires Owner(r, k.w, i) == p && Lane(r, i) <= Channels(r) ==>
               v[i] == u2[i] + Gain(k, r, p.x, p.y, Lane(r, i))
    requires !(Owner(r, k.w, i) == p && Lane(r, i) <= Channels(r)) ==> v[i] == u2[i]
    ensures ExpectedU2(k, r, v, done, i) == ExpectedU2(k, r, u2, done + {p}, i)
  {
  }

  lemma StepU2At(k: Dispatch, r: ClipRef, u2: seq<real>, done: set<Pixel>, p: Pixel, i: nat)
    requires k.w > 0 && |u2| == U2Size(r, k.w, k.h) && p !in done && i < |u2|
    ensures p.x < k.w && p.y < k.h ==>
              ExpectedU2(k, r, AccumulateU2(k, r, u2, p.x, p.y), done, i) == ExpectedU2(k, r, u2, done + {p}, i)
    ensures !(p.x < k.w && p.y < k.h) ==> ExpectedU2(k, r, u2, done, i) == ExpectedU2(k, r, u2, done + {p}, i)
  {
    OwnerSlot(r, k.w, k.h, i);
    if p.x < k.w && p.y < k.h {
      AccumulateU2At(k, r, u2, p, i);
      StepU2Value(k, r, u2, AccumulateU2(k, r, u2, p.x, p.y), done, p, i);
    }
  }

  /** Running one more pixel p on the expected state of `done` gives the expected
      state of `done` plus p. */
  lemma ExpectedStep(k: Dispatch, b: Buffers, done: set<Pixel>, p: Pixel)
    requires k.w > 0 && Sized(k, b) && p !in done
    ensures Expected(k, AccumulatePixel(k, b, p.x, p.y), done) == Expected(k, b, done + {p})
  {
    var b1 := AccumulatePixel(k, b, p.x, p.y);
    var lhs := Expected(k, b1, done);
    var rhs := Expected(k, b, done + {p});
    forall g | 0 <= g < |b.u5|
      ensures lhs.u5[g] == rhs.u5[g]
    {
      StepU5At(k, b.u5, done, p, g);
    }
    if RefBranch(k.tclip).Some? {
      forall i | 0 <= i < |b.u2|
        ensures lhs.u2[i] == rhs.u2[i]
      {
        StepU2At(k, RefBranch(k.tclip).value, b.u2, done, p, i);
      }
    }
  }

  /** The closed form of a dispatch: when no pixel runs twice, the buffers end up
      as Expected says for the set of pixels that ran. */
  lemma {:induction false} AccumulateAllClosedForm(k: Dispatch, b: Buffers, order: seq<Pixel>)
    requires k.w > 0 && Sized(k, b) && Distinct(order)
    ensures AccumulateAll(k, b, order) == Expected(k, b, Ran(order))
    decreases |order|
  {
    if |order| == 0 {
      assert Expected(k, b, {}).u5 == b.u5;
      if RefBranch(k.tclip).Some? {
        assert Expected(k, b, {}).u2 == b.u2;
      }
    } else {
      var p := order[0];
      var rest := order[1..];
      var b1 := AccumulatePixel(k, b, p.x, p.y);
      assert Distinct(rest);
      AccumulateAllClosedForm(k, b1, rest);
      assert p !in Ran(rest);
      ExpectedStep(k, b, Ran(rest), p);
      assert Ran(rest) + {p} == Ran(order);
    }
  }

  /** The result of a dispatch does not depend on the order its work-items run in. */
  lemma OrderIndependent(k: Dispatch, b: Buffers, order: seq<Pixel>, order': seq<Pixel>)
    requires k.w > 0 && Sized(k, b) && Distinct(order) && Distinct(order')
    requires forall p :: p in order <==> p in order'
    ensures AccumulateAll(k, b, order) == AccumulateAll(k, b, order')
  {
    AccumulateAllClosedForm(k, b, order);
    AccumulateAllClosedForm(k, b, order');
    assert (Ran(order)) == Ran(order');
  }

  /** The U2 slots of pixel (x, y) record ledger l: each channel slot holds its
      weighted sum and the weight slot the total weight. */
  predicate Records(r: ClipRef, w: nat, u2: seq<real>, x: nat, y: nat, l: seq<Term>) {
    Slot(r, w, x, y, Channels(r)) < |u2| &&
    (forall c | 0 <= c < Channels(r) :: u2[Slot(r, w, x, y, c)] == WeightedSum(l, c)) &&
    u2[Slot(r, w, x, y, Channels(r))] == TotalWeight(l)
  }

  /** An all-zero U2, as the host clears it, records the empty ledger everywhere. */
  lemma ZeroRecordsNothing(r: ClipRef, w: nat, h: nat, u2: seq<real>, x: nat, y: nat)
    requires |u2| == U2Size(r, w, h) && x < w && y < h
    requires forall i | 0 <= i < |u2| :: u2[i] == 0.0
    ensures Records(r, w, u2, x, y, [])
  {
    SlotInRange(r, w, h, x, y, Channels(r));
    forall c | 0 <= c < Channels(r)
      ensures u2[Slot(r, w, x, y, c)] == WeightedSum([], c)
    {
      SlotInRange(r, w, h, x, y, c);
    }
  }

  /** The channel gain of a pixel, written as the two terms it weighs. */
  lemma GainOfTerms(k: Dispatch, r: ClipRef, x: nat, y: nat, c: nat)
    requires c < Channels(r)
    ensures var a, b := Term(Centre(k, x, y), Ahead(k, x, y)), Term(WeightBehind(k, x, y), Behind(k, x, y));
            Gain(k, r, x, y, c) == a.weight * Channel(a.value, c) + b.weight * Channel(b.value, c)
  {
  }

  /** The value of slot c of a pixel, recorded for ledger l, plus the pixel's gain is
      the value recorded for l extended by the two terms. */
  lemma ExtendsSlot(k: Dispatch, r: ClipRef, x: nat, y: nat, l: seq<Term>, c: nat, before: real, after: real)
    requires c <= Channels(r)
    requires before == (if c < Channels(r) then WeightedSum(l, c) else TotalWeight(l))
    requires after == before + Gain(k, r, x, y, c)
    ensures var l' := l + [Term(Centre(k, x, y), Ahead(k, x, y)), Term(WeightBehind(k, x, y), Behind(k, x, y))];
            after == (if c < Channels(r) then WeightedSum(l', c) else TotalWeight(l'))
  {
    var a, b := Term(Centre(k, x, y), Ahead(k, x, y)), Term(WeightBehind(k, x, y), Behind(k, x, y));
    AppendTerms(l, a, b, c);
    if c < Channels(r) {
      GainOfTerms(k, r, x, y, c);
    }
  }

  /** Each accumulation extends the ledger of its pixel by the two terms it weighs:
      u4 with the sample at p + q and u4_mq with the sample at p - q. */
  lemma AccumulateExtendsLedger(k: Dispatch, r: ClipRef, u2: seq<real>, x: nat, y: nat, l: seq<Term>)
    requires |u2| == U2Size(r, k.w, k.h) && x < k.w && y < k.h
    requires Records(r, k.w, u2, x, y, l)
    ensures Records(r, k.w, AccumulateU2(k, r, u2, x, y), x, y,
                    l + [Term(Centre(k, x, y), Ahead(k, x, y)), Term(WeightBehind(k, x, y), Behind(k, x, y))])
  {
    var v := AccumulateU2(k, r, u2, x, y);
    var l' := l + [Term(Centre(k, x, y), Ahead(k, x, y)), Term(WeightBehind(k, x, y), Behind(k, x, y))];
    forall c | 0 <= c <= Channels(r)
      ensures v[Slot(r, k.w, x, y, c)] == (if c < Channels(r) then WeightedSum(l', c) else TotalWeight(l'))
    {
      var i := Slot(r, k.w, x, y, c);
      ExtendsSlot(k, r, x, y, l, c, u2[i], v[i]);
    }
  }

  /** Accumulating pixel (x, y) leaves the ledger of every other pixel as it was. */
  lemma AccumulateKeepsOtherLedgers(k: Dispatch, r: ClipRef, u2: seq<real>, x: nat, y: nat, x': nat, y': nat, l: seq<Term>)
    requires |u2| == U2Size(r, k.w, k.h) && x < k.w && y < k.h && x' < k.w && (x, y) != (x', y')
    requires Records(r, k.w, u2, x', y', l)
    ensures Records(r, k.w, AccumulateU2(k, r, u2, x, y), x', y', l)
  {
    var v := AccumulateU2(k, r, u2, x, y);
    forall c | 0 <= c <= Channels(r)
      ensures v[Slot(r, k.w, x', y', c)] == u2[Slot(r, k.w, x', y', c)]
    {
      var i := Slot(r, k.w, x', y', c);
      if Slot(r, k.w, x, y, 0) <= i <= Slot(r, k.w, x, y, Channels(r)) {
        SlotInjective(r, k.w, x, y, i - Base(r, k.w, x, y), x', y', c);
      }
    }
  }
}

=== FILE: clip.dfy ===
/** The clip description the host compiles into every kernel as the macro NLM_TCLIP:
    one bit per clip extra-flag, per sample type and per reference space, checked by
    the subset test CHECK_FLAG (KNLMeansCL/kernel.h:45-53, 72). */
module Clip {
  import opened Wrappers

  const ClipExtraFalse: bv32 := 1 << 0
  const ClipExtraTrue: bv32 := 1 << 1
  const ClipTypeUnorm: bv32 := 1 << 2
  const ClipTypeUnsigned: bv32 := 1 << 3
  const ClipTypeStacked: bv32 := 1 << 4
  const ClipRefLuma: bv32 := 1 << 5
  const ClipRefChroma: bv32 := 1 << 6
  const ClipRefYuv: bv32 := 1 << 7
  const ClipRefRgb: bv32 := 1 << 8

  /** How the host stores a sample: unorm float, 10-bit unsigned integer, or
      16 bits stacked as a high-byte plane and a low-byte plane. */
  datatype ClipType = Unorm | Unsigned | Stacked

  /** The colour space the distances and averages are taken in. */
  datatype ClipRef = Luma | Chroma | Yuv | Rgb

  datatype Format = Format(kind: ClipType, ref: ClipRef)

  function TypeFlag(t: ClipType): bv32 {
    match t
    case Unorm => ClipTypeUnorm
    case Unsigned => ClipTypeUnsigned
    case Stacked => ClipTypeStacked
  }

  function RefFlag(r: ClipRef): bv32 {
    match r
    case Luma => ClipRefLuma
    case Chroma => ClipRefChroma
    case Yuv => ClipRefYuv
    case Rgb => ClipRefRgb
  }

  /** The NLM_TCLIP word the host builds for a clip: one extra flag, one type, one reference. */
  function ClipFlags(f: Format, extra: bool): bv32 {
    (if extra then ClipExtraTrue else ClipExtraFalse) | TypeFlag(f.kind) | RefFlag(f.ref)
  }

  /** CHECK_FLAG: every bit of `flag` is set in `tclip`. */
  predicate CheckFlag(tclip: bv32, flag: bv32) {
    tclip & flag == flag
  }

  /** Number of channels of the internal image for a reference space. */
  function Channels(r: ClipRef): (n: nat)
    ensures 1 <= n <= 3
    ensures n == 1 <==> r == Luma
  {
    match r
    case Luma => 1
    case Chroma => 2
    case Yuv => 3
    case Rgb => 3
  }

  /** The eight formats for which Pack and Unpack have a branch. */
  predicate Supported(f: Format) {
    match f.kind
    case Unorm => f.ref != Luma
    case Unsigned => f.ref == Yuv || f.ref == Rgb
    case Stacked => f.ref != Rgb
  }

  /** The if-else chain of Pack and Unpack: the first combined flag that
      CHECK_FLAG accepts selects the branch; no flag, no branch. */
  function PackBranch(tclip: bv32): (b: Option<Format>)
    ensures b.Some? ==> Supported(b.value)
  {
    if CheckFlag(tclip, ClipTypeStacked | ClipRefLuma) then Some(Format(Stacked, Luma))
    else if CheckFlag(tclip, ClipTypeUnorm | ClipRefChroma) then Some(Format(Unorm, Chroma))
    else if CheckFlag(tclip, ClipTypeStacked | ClipRefChroma) then Some(Format(Stacked, Chroma))
    else if CheckFlag(tclip, ClipTypeUnorm | ClipRefYuv) then Some(Format(Unorm, Yuv))
    else if CheckFlag(tclip, ClipTypeUnsigned | ClipRefYuv) then Some(Format(Unsigned, Yuv))
    else if CheckFlag(tclip, ClipTypeStacked | ClipRefYuv) then Some(Format(Stacked, Yuv))
    else if CheckFlag(tclip, ClipTypeUnorm | ClipRefRgb) then Some(Format(Unorm, Rgb))
    else if CheckFlag(tclip, ClipTypeUnsigned | ClipRefRgb) then Some(Format(Unsigned, Rgb))
    else None
  }

  /** The if-else chain of Distance, Accumulation and Finish, on the reference flag alone. */
  function RefBranch(tclip: bv32): (b: Option<ClipRef>)
    ensures b.Some? ==> CheckFlag(tclip, RefFlag(b.value))
  {
    if CheckFlag(tclip, ClipRefLuma) then Some(Luma)
    else if CheckFlag(tclip, ClipRefChroma) then Some(Chroma)
    else if CheckFlag(tclip, ClipRefYuv) then Some(Yuv)
    else if CheckFlag(tclip, ClipRefRgb) then Some(Rgb)
    else None
  }

  /** On a word the host builds, Pack and Unpack take exactly the branch of the
      clip's own format, and none when the format is one of the four without a branch. */
  lemma PackBranchOfClip(f: Format, extra: bool)
    ensures PackBranch(ClipFlags(f, extra)) == (if Supported(f) then Some(f) else None)
  {
    match f.kind
    case Unorm => {
      match f.ref
      case Luma => {} case Chroma => {} case Yuv => {} case Rgb => {}
    }
    case Unsigned => {
      match f.ref
      case Luma => {} case Chroma => {} case Yuv => {} case Rgb => {}
    }
    case Stacked => {
      match f.ref
      case Luma => {} case Chroma => {} case Yuv => {} case Rgb => {}
    }
  }

  /** On a word the host builds, the reference chain picks the clip's own reference space,
      whatever its type and extra flag. */
  lemma RefBranchOfClip(f: Format, extra: bool)
    ensures RefBranch(ClipFlags(f, extra)) == Some(f.ref)
  {
    match f.kind
    case Unorm => {
      match f.ref
      case Luma => {} case Chroma => {} case Yuv => {} case Rgb => {}
    }
    case Unsigned => {
      match f.ref
      case Luma => {} case Chroma => {} case Yuv => {} case Rgb => {}
    }
    case Stacked => {
      match f.ref
      case Luma => {} case Chroma => {} case Yuv => {} case Rgb => {}
    }
  }
}

=== FILE: distance.dfy ===
/** nlmDistance (KNLMeansCL/kernel.h:74-125): for one offset q, the per-pixel
    weighted squared difference between p and its partner pixel. */
module Distance {
  import opened Wrappers
  import opened Clip
  import opened Frames

  function Abs(n: int): nat {
    if n < 0 then -n else n
  }

  /** The partner index `dim - abs_diff(c, dim - 1)` for c = x + q.x (or y + q.y).
      It is one past c below the last index and reflects c about dim - 1/2 above it;
      at c = dim - 1 it is dim. */
  function MirrorIndex(dim: int, c: int): (m: int)
    ensures c <= dim - 1 ==> m == c + 1
    ensures c >= dim - 1 ==> m == 2 * dim - 1 - c
  {
    dim - Abs(c - (dim - 1))
  }

  /** The partner index lies in [0, dim). */
  predicate PartnerInRange(dim: nat, c: int) {
    0 <= MirrorIndex(dim, c) < dim
  }

  /** Exactly the coordinates in [-1, dim - 2] and [dim, 2 * dim - 1] have an in-range
      partner; in particular c = dim - 1 never does. */
  lemma PartnerInRangeIff(dim: nat, c: int)
    ensures PartnerInRange(dim, c) <==> (-1 <= c <= dim - 2 || dim <= c <= 2 * dim - 1)
  {
    if c <= dim - 1 {
      assert MirrorIndex(dim, c) == c + 1;
    } else {
      assert MirrorIndex(dim, c) == 2 * dim - 1 - c;
    }
  }

  /** For every displacement 0 <= q.x < dim some pixel of the row has c = dim - 1,
      so its partner index is dim, one past the last column. */
  lemma LastPartnerOverruns(dim: nat, qx: int)
    requires 0 <= qx < dim
    ensures 0 <= dim - 1 - qx < dim
    ensures MirrorIndex(dim, (dim - 1 - qx) + qx) == dim
    ensures !PartnerInRange(dim, (dim - 1 - qx) + qx)
  {
  }

  /** The single-pixel term for each reference space; missing channels read 0. */
  function PixelDistance(r: ClipRef, u: Sample, v: Sample): real {
    match r
    case Luma =>
      3.0 * (Channel(u, 0) - Channel(v, 0)) * (Channel(u, 0) - Channel(v, 0))
    case Chroma =>
      var du := (Channel(u, 0) - Channel(v, 0)) * (Channel(u, 0) - Channel(v, 0));
      var dv := (Channel(u, 1) - Channel(v, 1)) * (Channel(u, 1) - Channel(v, 1));
      1.5 * (du + dv)
    case Yuv =>
      var dy := (Channel(u, 0) - Channel(v, 0)) * (Channel(u, 0) - Channel(v, 0));
      var du := (Channel(u, 1) - Channel(v, 1)) * (Channel(u, 1) - Channel(v, 1));
      var dv := (Channel(u, 2) - Channel(v, 2)) * (Channel(u, 2) - Channel(v, 2));
      dy + du + dv
    case Rgb =>
      var mRed := (Channel(u, 0) + Channel(v, 0)) / 6.0;
      var dr := (2.0 / 3.0 + mRed) * (Channel(u, 0) - Channel(v, 0)) * (Channel(u, 0) - Channel(v, 0));
      var dg := (4.0 / 3.0) * (Channel(u, 1) - Channel(v, 1)) * (Channel(u, 1) - Channel(v, 1));
      var db := (1.0 - mRed) * (Channel(u, 2) - Channel(v, 2)) * (Channel(u, 2) - Channel(v, 2));
      dr + dg + db
  }

  /** Both red samples in [0, 1], the condition under which the RGB weights are non-negative. */
  predicate RedsInUnit(u: Sample, v: Sample) {
    0.0 <= Channel(u, 0) <= 1.0 && 0.0 <= Channel(v, 0) <= 1.0
  }

  lemma SquareNonNegative(d: real)
    ensures d * d >= 0.0
  {
    if d < 0.0 {
      assert d * d == (-d) * (-d);
    }
  }

  lemma ScaledSquareNonNegative(k: real, d: real)
    requires k >= 0.0
    ensures k * d * d >= 0.0
  {
    SquareNonNegative(d);
    assert k * d * d == k * (d * d);
  }

  /** The term does not depend on which pixel of the pair is p, which is what lets
      the offsets +q and -q share one weight. */
  lemma PixelDistanceSymmetric(r: ClipRef, u: Sample, v: Sample)
    ensures PixelDistance(r, u, v) == PixelDistance(r, v, u)
  {
    var d0 := Channel(u, 0) - Channel(v, 0);
    var d1 := Channel(u, 1) - Channel(v, 1);
    var d2 := Channel(u, 2) - Channel(v, 2);
    assert d0 * d0 == (-d0) * (-d0);
    assert d1 * d1 == (-d1) * (-d1);
    assert d2 * d2 == (-d2) * (-d2);
    match r
    case Luma => {
      assert 3.0 * d0 * d0 == 3.0 * (-d0) * (-d0);
    }
    case Chroma => {}
    case Yuv => {}
    case Rgb => {
      var m := (Channel(u, 0) + Channel(v, 0)) / 6.0;
      assert m == (Channel(v, 0) + Channel(u, 0)) / 6.0;
      assert (2.0 / 3.0 + m) * d0 * d0 == (2.0 / 3.0 + m) * (-d0) * (-d0);
      assert (4.0 / 3.0) * d1 * d1 == (4.0 / 3.0) * (-d1) * (-d1);
      assert (1.0 - m) * d2 * d2 == (1.0 - m) * (-d2) * (-d2);
    }
  }

  /** Pixels that agree on the channels of the reference space are at distance 0,
      whatever their other channels hold. */
  lemma PixelDistanceSelf(r: ClipRef, u: Sample, v: Sample)
    requires forall c | 0 <= c < Channels(r) :: Channel(u, c) == Channel(v, c)
    ensures PixelDistance(r, u, v) == 0.0
  {
    assert Channel(u, 0) == Channel(v, 0);
    if Channels(r) >= 2 {
      assert Channel(u, 1) == Channel(v, 1);
    }
    if Channels(r) >= 3 {
      assert Channel(u, 2) == Channel(v, 2);
    }
  }

  /** The term is non-negative for luma, chroma and YUV, and for RGB when both red
      samples lie in [0, 1] (then 2/3 + m >= 0 and 1 - m > 0). */
  lemma PixelDistanceNonNegative(r: ClipRef, u: Sample, v: Sample)
    requires r == Rgb ==> RedsInUnit(u, v)
    ensures PixelDistance(r, u, v) >= 0.0
  {
    var d0 := Channel(u, 0) - Channel(v, 0);
    var d1 := Channel(u, 1) - Channel(v, 1);
    var d2 := Channel(u, 2) - Channel(v, 2);
    SquareNonNegative(d0);
    SquareNonNegative(d1);
    SquareNonNegative(d2);
    match r
    case Luma => {
      ScaledSquareNonNegative(3.0, d0);
    }
    case Chroma => {}
    case Yuv => {}
    case Rgb => {
      var m := (Channel(u, 0) + Channel(v, 0)) / 6.0;
      assert 0.0 <= m <= 1.0 / 3.0;
      ScaledSquareNonNegative(2.0 / 3.0 + m, d0);
      ScaledSquareNonNegative(4.0 / 3.0, d1);
      ScaledSquareNonNegative(1.0 - m, d2);
    }
  }

  /** The work-item (x, y) of nlmDistance for layer t: nothing outside the frame or
      when the flags name no reference space, otherwise the distance between the
      pixel and its partner at layer t + q.z. Both reads use CLK_ADDRESS_NONE, which
      is defined only inside the frame, so the partner must be in range. */
  function DistanceAt(tclip: bv32, u1: Volume, w: nat, h: nat, t: int, q: Offset, x: nat, y: nat): (d: Option<real>)
    requires Shaped(u1, w, h) && |u1| > 0
    requires x < w && y < h ==> PartnerInRange(w, x + q.x) && PartnerInRange(h, y + q.y)
    ensures d.Some? <==> x < w && y < h && RefBranch(tclip).Some?
    ensures d.Some? ==>
              var px := if x + q.x <= w - 1 then x + q.x + 1 else 2 * w - 1 - (x + q.x);
              var py := if y + q.y <= h - 1 then y + q.y + 1 else 2 * h - 1 - (y + q.y);
              d.value == PixelDistance(RefBranch(tclip).value, PixelAt(u1, x, y, t), PixelAt(u1, px, py, t + q.z)) &&
              ((RefBranch(tclip) == Some(Rgb) ==> RedsInUnit(PixelAt(u1, x, y, t), PixelAt(u1, px, py, t + q.z))) ==> d.value >= 0.0)
  {
    if x >= w || y >= h then None
    else match RefBranch(tclip)
      case None => None
      case Some(r) =>
        var u := PixelAt(u1, x, y, t);
        var v := PixelAt(u1, MirrorIndex(w, x + q.x), MirrorIndex(h, y + q.y), t + q.z);
        if r == Rgb ==> RedsInUnit(u, v) then
          PixelDistanceNonNegative(r, u, v);
          Some(PixelDistance(r, u, v))
        else
          Some(PixelDistance(r, u, v))
  }

  /** With the offset q that nlmAccumulation reads U4 with, the term at p = (x, y)
      compares p with the pixel one step right and down of p + q. */
  lemma PlusOffsetPair(tclip: bv32, u1: Volume, w: nat, h: nat, t: int, q: Offset, x: nat, y: nat)
    requires Shaped(u1, w, h) && |u1| > 0 && RefBranch(tclip).Some?
    requires x < w && y < h && 0 <= x + q.x + 1 < w && 0 <= y + q.y + 1 < h
    ensures PartnerInRange(w, x + q.x) && PartnerInRange(h, y + q.y)
    ensures DistanceAt(tclip, u1, w, h, t, q, x, y)
              == Some(PixelDistance(RefBranch(tclip).value, PixelAt(u1, x, y, t), PixelAt(u1, x + q.x + 1, y + q.y + 1, t + q.z)))
  {
  }

  /** The term at p - q compares p - q with the pixel one step right and down of p,
      not with p: U4 at p - q weighs the sample at p - q by a pair one pixel off the
      pair (p - q, p) along each axis. */
  lemma MinusOffsetPair(tclip: bv32, u1: Volume, w: nat, h: nat, t: int, q: Offset, x: nat, y: nat)
    requires Shaped(u1, w, h) && |u1| > 0 && RefBranch(tclip).Some?
    requires x + 1 < w && y + 1 < h && 0 <= x - q.x < w && 0 <= y - q.y < h
    ensures PartnerInRange(w, (x - q.x) + q.x) && PartnerInRange(h, (y - q.y) + q.y)
    ensures DistanceAt(tclip, u1, w, h, t, q, x - q.x, y - q.y)
              == Some(PixelDistance(RefBranch(tclip).value, PixelAt(u1, x - q.x, y - q.y, t), PixelAt(u1, x + 1, y + 1, t + q.z)))
  {
  }

  /** The offset q - (1, 1) removes the step: its terms at p and at p - q compare p
      with p + q and p - q with p, the pairs whose samples nlmAccumulation weighs. */
  lemma ShiftedOffsetPairs(tclip: bv32, u1: Volume, w: nat, h: nat, t: int, q: Offset, x: nat, y: nat)
    requires Shaped(u1, w, h) && |u1| > 0 && RefBranch(tclip).Some?
    requires x < w && y < h
    ensures var qd := Offset(q.x - 1, q.y - 1, q.z);
            0 <= x + q.x < w && 0 <= y + q.y < h ==>
              PartnerInRange(w, x + qd.x) && PartnerInRange(h, y + qd.y) &&
              DistanceAt(tclip, u1, w, h, t, qd, x, y)
                == Some(PixelDistance(RefBranch(tclip).value, PixelAt(u1, x, y, t), PixelAt(u1, x + q.x, y + q.y, t + q.z)))
    ensures var qd := Offset(q.x - 1, q.y - 1, q.z);
            0 <= x - q.x < w && 0 <= y - q.y < h ==>
              PartnerInRange(w, (x - q.x) + qd.x) && PartnerInRange(h, (y - q.y) + qd.y) &&
              DistanceAt(tclip, u1, w, h, t, qd, x - q.x, y - q.y)
                == Some(PixelDistance(RefBranch(tclip).value, PixelAt(u1, x - q.x, y - q.y, t), PixelAt(u1, x, y, t + q.z)))
  {
  }
}

=== FILE: finish.dfy ===
/** nlmFinish (KNLMeansCL/kernel.h:265-326): every pixel divides its accumulated
    channel sums by its accumulated weight, after adding its own value with the
    centre weight wM = NLM_WREF * U5[gidx]. */
module Finish {
  import opened Clip
  import opened Frames
  import opened Ledger
  import opened Accumulation

  /** What the work-item of (x, y) does to U1_out: nothing (outside the frame, or
      flags without a reference space), a written float4, or a division by a zero
      denominator, whose float result this model does not give. */
  datatype Outcome = Skipped | Written(value: Sample) | ZeroDenominator

  /** num / den for one channel: (sum + wM * u) / den. */
  function Blend(sum: real, wM: real, u: real, den: real): real
    requires den != 0.0
  {
    (sum + wM * u) / den
  }

  /** wM = NLM_WREF * U5[gidx]. */
  function CentreWeight(wref: real, u5: seq<real>, w: nat, h: nat, x: nat, y: nat): real
    requires |u5| == U5Size(w, h) && x < w && y < h
  {
    PixelIndexInRange(w, h, x, y);
    wref * u5[PixelIndex(w, x, y)]
  }

  /** den: the accumulated weight of the pixel plus wM. */
  function Denominator(r: ClipRef, u2: seq<real>, wM: real, w: nat, h: nat, x: nat, y: nat): real
    requires |u2| == U2Size(r, w, h) && x < w && y < h
  {
    SlotInRange(r, w, h, x, y, Channels(r));
    u2[Slot(r, w, x, y, Channels(r))] + wM
  }

  /** The work-item of (x, y). U2 is read as float2 (luma) or float4 at gidx, that
      is at Slot(r, w, x, y, c) (SlotForm); U1_in is read at the pixel itself, with
      CLK_ADDRESS_NONE, so the host supplies layer NLM_D and a frame of the right size. */
  function FinishPixel(tclip: bv32, u1: Volume, u2: seq<real>, u5: seq<real>, wref: real,
                       d: int, w: nat, h: nat, x: nat, y: nat): (o: Outcome)
    requires |u5| == U5Size(w, h)
    requires RefBranch(tclip).Some? ==> |u2| == U2Size(RefBranch(tclip).value, w, h)
    requires 0 <= d < |u1| && Shaped(u1, w, h)
    ensures o.Skipped? <==> x >= w || y >= h || RefBranch(tclip).None?
    ensures o.Written? ==>
              |o.value| == 4 &&
              forall c | Channels(RefBranch(tclip).value) <= c < 4 :: o.value[c] == 0.0
  {
    if x >= w || y >= h then Skipped
    else match RefBranch(tclip)
      case None => Skipped
      case Some(r) =>
        var wM := CentreWeight(wref, u5, w, h, x, y);
        var den := Denominator(r, u2, wM, w, h, x, y);
        if den == 0.0 then ZeroDenominator
        else
          Written(seq(4, c requires 0 <= c < 4 =>
            if c < Channels(r) then
              SlotInRange(r, w, h, x, y, c);
              Blend(u2[Slot(r, w, x, y, c)], wM, Read(u1, x, y, d, c), den)
            else 0.0))
  }

  lemma DivBounds(lo: real, hi: real, num: real, den: real)
    requires den > 0.0 && lo * den <= num <= hi * den
    ensures lo <= num / den <= hi
  {
    var v := num / den;
    assert v * den == num;
    assert (v - lo) * den >= 0.0;
    assert (hi - v) * den >= 0.0;
  }

  lemma BlendArith(total: real, sum: real, wM: real, u: real, lo: real, hi: real)
    requires total >= 0.0 && wM > 0.0
    requires lo * total <= sum <= hi * total && lo <= u <= hi
    ensures total + wM > 0.0
    ensures lo <= Blend(sum, wM, u, total + wM) <= hi
  {
    BoundsStep(lo, hi, total, sum, wM, u);
    DivBounds(lo, hi, sum + wM * u, total + wM);
  }

  /** The written channel c of a pixel, read off its U2 slots. */
  lemma ChannelOfSlots(tclip: bv32, u1: Volume, u2: seq<real>, u5: seq<real>, wref: real,
                       d: int, w: nat, h: nat, x: nat, y: nat, c: nat)
    requires |u5| == U5Size(w, h) && 0 <= d < |u1| && Shaped(u1, w, h)
    requires x < w && y < h && RefBranch(tclip).Some?
    requires |u2| == U2Size(RefBranch(tclip).value, w, h)
    requires c < Channels(RefBranch(tclip).value)
    requires Denominator(RefBranch(tclip).value, u2, CentreWeight(wref, u5, w, h, x, y), w, h, x, y) != 0.0
    ensures Slot(RefBranch(tclip).value, w, x, y, c) < |u2|
    ensures FinishPixel(tclip, u1, u2, u5, wref, d, w, h, x, y).Written?
    ensures FinishPixel(tclip, u1, u2, u5, wref, d, w, h, x, y).value[c]
              == Blend(u2[Slot(RefBranch(tclip).value, w, x, y, c)], CentreWeight(wref, u5, w, h, x, y), Read(u1, x, y, d, c),
                       Denominator(RefBranch(tclip).value, u2, CentreWeight(wref, u5, w, h, x, y), w, h, x, y))
  {
    SlotInRange(RefBranch(tclip).value, w, h, x, y, c);
  }

  /** nlmFinish reads back what nlmAccumulation recorded: when the U2 slots of a
      pixel record ledger l, channel c of the result is the ledger's weighted sum
      plus wM times the pixel's own value, over the ledger's total weight plus wM. */
  lemma FinishChannel(tclip: bv32, u1: Volume, u2: seq<real>, u5: seq<real>, wref: real,
                      d: int, w: nat, h: nat, x: nat, y: nat, l: seq<Term>, c: nat)
    requires |u5| == U5Size(w, h) && 0 <= d < |u1| && Shaped(u1, w, h)
    requires x < w && y < h && RefBranch(tclip).Some?
    requires |u2| == U2Size(RefBranch(tclip).value, w, h)
    requires Records(RefBranch(tclip).value, w, u2, x, y, l)
    requires c < Channels(RefBranch(tclip).value)
    requires TotalWeight(l) + CentreWeight(wref, u5, w, h, x, y) != 0.0
    ensures FinishPixel(tclip, u1, u2, u5, wref, d, w, h, x, y).Written?
    ensures FinishPixel(tclip, u1, u2, u5, wref, d, w, h, x, y).value[c]
              == (WeightedSum(l, c) + CentreWeight(wref, u5, w, h, x, y) * Read(u1, x, y, d, c))
                 / (TotalWeight(l) + CentreWeight(wref, u5, w, h, x, y))
  {
    var r := RefBranch(tclip).value;
    var wM := CentreWeight(wref, u5, w, h, x, y);
    var u := Read(u1, x, y, d, c);
    var den := Denominator(r, u2, wM, w, h, x, y);
    assert den == TotalWeight(l) + wM;
    ChannelOfSlots(tclip, u1, u2, u5, wref, d, w, h, x, y, c);
    var sum := u2[Slot(r, w, x, y, c)];
    assert sum == WeightedSum(l, c);
    assert FinishPixel(tclip, u1, u2, u5, wref, d, w, h, x, y).value[c] == Blend(sum, wM, u, den);
  }

  /** Finish computes a weighted average. When the U2 slots of a pixel record a
      ledger of non-negative weights and the centre weight is positive, the
      denominator is positive, so the pixel is written, and each channel of the
      result lies within any bounds that hold for the ledger's samples and the
      pixel's own value. */
  lemma FinishIsWeightedAverage(tclip: bv32, u1: Volume, u2: seq<real>, u5: seq<real>, wref: real,
                                d: int, w: nat, h: nat, x: nat, y: nat,
                                l: seq<Term>, c: nat, lo: real, hi: real)
    requires |u5| == U5Size(w, h) && 0 <= d < |u1| && Shaped(u1, w, h)
    requires x < w && y < h && RefBranch(tclip).Some?
    requires |u2| == U2Size(RefBranch(tclip).value, w, h)
    requires Records(RefBranch(tclip).value, w, u2, x, y, l) && NonNegativeWeights(l)
    requires CentreWeight(wref, u5, w, h, x, y) > 0.0
    requires c < Channels(RefBranch(tclip).value)
    requires ChannelWithin(l, c, lo, hi) && lo <= Read(u1, x, y, d, c) <= hi
    ensures Denominator(RefBranch(tclip).value, u2, CentreWeight(wref, u5, w, h, x, y), w, h, x, y) > 0.0
    ensures FinishPixel(tclip, u1, u2, u5, wref, d, w, h, x, y).Written?
    ensures lo <= FinishPixel(tclip, u1, u2, u5, wref, d, w, h, x, y).value[c] <= hi
  {
    var total, sum := TotalWeight(l), WeightedSum(l, c);
    TotalWeightNonNegative(l);
    WeightedSumBounds(l, c, lo, hi);
    BlendArith(total, sum, CentreWeight(wref, u5, w, h, x, y), Read(u1, x, y, d, c), lo, hi);
    FinishChannel(tclip, u1, u2, u5, wref, d, w, h, x, y, l, c);
  }

  /** A flat ledger stays flat: when every sample of the ledger and the pixel itself
      have channel c equal to v, the result has channel c equal to v. */
  lemma FinishKeepsFlatField(tclip: bv32, u1: Volume, u2: seq<real>, u5: seq<real>, wref: real,
                             d: int, w: nat, h: nat, x: nat, y: nat, l: seq<Term>, c: nat, v: real)
    requires |u5| == U5Size(w, h) && 0 <= d < |u1| && Shaped(u1, w, h)
    requires x < w && y < h && RefBranch(tclip).Some?
    requires |u2| == U2Size(RefBranch(tclip).value, w, h)
    requires Records(RefBranch(tclip).value, w, u2, x, y, l) && NonNegativeWeights(l)
    requires CentreWeight(wref, u5, w, h, x, y) > 0.0
    requires c < Channels(RefBranch(tclip).value)
    requires ChannelWithin(l, c, v, v) && Read(u1, x, y, d, c) == v
    ensures FinishPixel(tclip, u1, u2, u5, wref, d, w, h, x, y).Written?
    ensures FinishPixel(tclip, u1, u2, u5, wref, d, w, h, x, y).value[c] == v
  {
    FinishIsWeightedAverage(tclip, u1, u2, u5, wref, d, w, h, x, y, l, c, v, v);
  }
}

=== FILE: frames.dfy ===
/** Images as the kernels see them, and the two ways an OpenCL image read treats
    coordinates: CLK_ADDRESS_CLAMP returns the border colour, whose channels are 0,
    outside the frame; the layer index of an image array is always clamped to the
    existing layers. A channel the image format lacks reads as 0. */
module Frames {

  /** The channels of one pixel (x, y, z as the kernels name them). */
  type Sample = seq<real>

  /** A one-channel image, as rows of columns: p[y][x]. */
  type Plane = seq<seq<real>>

  /** One layer of the internal image U1. */
  type Image = seq<seq<Sample>>

  /** An image array: layers t of the internal image (U1). */
  type Volume = seq<Image>

  /** An image array of one-channel layers (the distance and weight images U4). */
  type Field = seq<Plane>

  /** A search displacement (q.x, q.y) and its temporal component q.z. */
  datatype Offset = Offset(x: int, y: int, z: int)

  function Channel(s: Sample, c: nat): real {
    if c < |s| then s[c] else 0.0
  }

  predicate IsPlane(p: Plane, w: nat, h: nat) {
    |p| == h && forall y | 0 <= y < h :: |p[y]| == w
  }

  /** Every layer of `v` has h rows of w pixels. */
  predicate Shaped(v: Volume, w: nat, h: nat) {
    forall t | 0 <= t < |v| :: |v[t]| == h && forall y | 0 <= y < h :: |v[t][y]| == w
  }

  function ClampLayer(t: int, depth: nat): (l: int)
    requires depth > 0
    ensures 0 <= l < depth
    ensures 0 <= t < depth ==> l == t
  {
    if t < 0 then 0 else if t >= depth then depth - 1 else t
  }

  /** Column c of a line, 0 outside it. */
  function LineAt(line: seq<real>, c: int): real {
    if 0 <= c < |line| then line[c] else 0.0
  }

  /** Row y of a plane; outside the plane a row of nothing, so every read in it is 0. */
  function Row(p: Plane, y: int): seq<real> {
    if 0 <= y < |p| then p[y] else []
  }

  /** A CLK_ADDRESS_CLAMP read of a one-channel plane. */
  function PlaneAt(p: Plane, x: int, y: int): real {
    LineAt(Row(p, y), x)
  }

  /** A CLK_ADDRESS_CLAMP read of layer t of a one-channel image array. */
  function FieldAt(f: Field, x: int, y: int, t: int): real {
    if |f| == 0 then 0.0 else PlaneAt(f[ClampLayer(t, |f|)], x, y)
  }

  /** A CLK_ADDRESS_CLAMP read of the pixel at (x, y) of layer t; the border colour
      is the empty sample, all of whose channels read 0. */
  function PixelAt(v: Volume, x: int, y: int, t: int): Sample {
    if |v| == 0 then []
    else
      var img := v[ClampLayer(t, |v|)];
      if 0 <= y < |img| && 0 <= x < |img[y]| then img[y][x] else []
  }

  /** Channel c of a CLK_ADDRESS_CLAMP read. */
  function Read(v: Volume, x: int, y: int, t: int, c: nat): real {
    Channel(PixelAt(v, x, y, t), c)
  }
}

=== FILE: ledger.dfy ===
/** The bookkeeping behind the accumulator U2: over a whole run, the channel slots of
    one pixel hold a weighted sum of samples and its weight slot the sum of the
    weights (KNLMeansCL/kernel.h:221-259). A ledger lists those weighted samples. */
module Ledger {
  import opened Frames

  /** One contribution to a pixel: a weight (u4 or u4_mq) and the sample it weighs. */
  datatype Term = Term(weight: real, value: Sample)

  /** The sum of weight * channel c over the ledger. */
  function WeightedSum(l: seq<Term>, c: nat): real
    decreases |l|
  {
    if |l| == 0 then 0.0 else WeightedSum(l[..|l| - 1], c) + l[|l| - 1].weight * Channel(l[|l| - 1].value, c)
  }

  /** The sum of the weights of the ledger. */
  function TotalWeight(l: seq<Term>): real
    decreases |l|
  {
    if |l| == 0 then 0.0 else TotalWeight(l[..|l| - 1]) + l[|l| - 1].weight
  }

  predicate NonNegativeWeights(l: seq<Term>) {
    forall i | 0 <= i < |l| :: l[i].weight >= 0.0
  }

  /** Channel c of every sample of the ledger lies in [lo, hi]. */
  predicate ChannelWithin(l: seq<Term>, c: nat, lo: real, hi: real) {
    forall i | 0 <= i < |l| :: lo <= Channel(l[i].value, c) <= hi
  }

  lemma {:induction false} TotalWeightNonNegative(l: seq<Term>)
    requires NonNegativeWeights(l)
    ensures TotalWeight(l) >= 0.0
    decreases |l|
  {
    if |l| > 0 {
      TotalWeightNonNegative(l[..|l| - 1]);
    }
  }

  /** One more term keeps a weighted sum between lo and hi times its total weight. */
  lemma BoundsStep(lo: real, hi: real, total: real, sum: real, w: real, v: real)
    requires lo * total <= sum <= hi * total
    requires w >= 0.0 && lo <= v <= hi
    ensures lo * (total + w) <= sum + w * v <= hi * (total + w)
  {
    assert w * v - w * lo == w * (v - lo);
    assert w * hi - w * v == w * (hi - v);
    assert lo * (total + w) == lo * total + w * lo;
    assert hi * (total + w) == hi * total + w * hi;
  }

  /** A weighted sum with non-negative weights lies between lo and hi times the
      total weight when every weighed value does. */
  lemma {:induction false} WeightedSumBounds(l: seq<Term>, c: nat, lo: real, hi: real)
    requires NonNegativeWeights(l) && ChannelWithin(l, c, lo, hi)
    ensures lo * TotalWeight(l) <= WeightedSum(l, c) <= hi * TotalWeight(l)
    decreases |l|
  {
    if |l| > 0 {
      var last := l[|l| - 1];
      var init := l[..|l| - 1];
      WeightedSumBounds(init, c, lo, hi);
      assert ChannelWithin(init, c, lo, hi);
      assert lo <= Channel(last.value, c) <= hi;
      BoundsStep(lo, hi, TotalWeight(init), WeightedSum(init, c), last.weight, Channel(last.value, c));
    }
  }

  /** Appending terms adds their contributions: the ledger of a pixel grows by the
      two terms each accumulation adds. */
  lemma AppendTerms(l: seq<Term>, a: Term, b: Term, c: nat)
    ensures WeightedSum(l + [a, b], c) == WeightedSum(l, c) + a.weight * Channel(a.value, c) + b.weight * Channel(b.value, c)
    ensures TotalWeight(l + [a, b]) == TotalWeight(l) + a.weight + b.weight
  {
    assert (l + [a, b])[..|l| + 1] == l + [a];
    assert (l + [a])[..|l|] == l;
  }
}

=== FILE: pack.dfy ===
/** nlmPack and nlmUnpack (KNLMeansCL/kernel.h:328-459): conversion between the
    host's planes and the normalised internal sample, one pixel at a time. */
module Pack {
  import opened Wrappers
  import opened Clip
  import opened Frames

  /** NLM_16BIT_MSB and NLM_16BIT_LSB: since 257 * 255 == 65535 they weigh the
      two bytes as the 16-bit word 256 * msb + lsb over 65535. */
  const Msb16: real := 256.0 / (257.0 * 255.0)
  const Lsb16: real := 1.0 / (257.0 * 255.0)

  /** The only integer depth with a branch: 10 bits. */
  const Max10: real := 1023.0
  const Max16: real := 65535.0

  /** What the host's planes hold at one pixel: the samples of R, G, B read as
      floats, or as integers, or the high bytes of R, G, B with the low bytes of
      R_lsb, G_lsb, B_lsb. Only the first Channels(ref) planes are used. */
  datatype HostPixel =
    | FloatPlanes(values: seq<real>)
    | WordPlanes(words: seq<int>)
    | BytePlanes(msb: seq<int>, lsb: seq<int>)

  /** The host supplies planes of the kind the format reads, one per channel. */
  predicate Fits(f: Format, px: HostPixel) {
    match f.kind
    case Unorm => px.FloatPlanes? && |px.values| == Channels(f.ref)
    case Unsigned => px.WordPlanes? && |px.words| == Channels(f.ref)
    case Stacked => px.BytePlanes? && |px.msb| == Channels(f.ref) && |px.lsb| == Channels(f.ref)
  }

  /** Integer samples a host of that depth can hold. */
  predicate HostRange(px: HostPixel) {
    match px
    case FloatPlanes(_) => true
    case WordPlanes(n) => forall c | 0 <= c < |n| :: 0 <= n[c] <= 1023
    case BytePlanes(m, l) =>
      (forall c | 0 <= c < |m| :: 0 <= m[c] <= 255) && (forall c | 0 <= c < |l| :: 0 <= l[c] <= 255)
  }

  function Stacked16(msb: int, lsb: int): (v: real)
    ensures v == (256 * msb + lsb) as real / Max16
    ensures 0 <= msb <= 255 && 0 <= lsb <= 255 ==> 0.0 <= v <= 1.0
  {
    Msb16 * msb as real + Lsb16 * lsb as real
  }

  /** Plane c of a host pixel converted to the internal value by its kind's rule. */
  function PlaneValue(px: HostPixel, c: nat): real
    requires px.FloatPlanes? ==> c < |px.values|
    requires px.WordPlanes? ==> c < |px.words|
    requires px.BytePlanes? ==> c < |px.msb| && c < |px.lsb|
  {
    match px
    case FloatPlanes(f) => f[c]
    case WordPlanes(n) => n[c] as real / Max10
    case BytePlanes(m, l) => Stacked16(m[c], l[c])
  }

  /** nlmPack at one pixel: the branch NLM_TCLIP selects converts each of its
      channels; a format without a branch writes nothing. */
  function Pack(tclip: bv32, px: HostPixel): (s: Option<Sample>)
    requires PackBranch(tclip).Some? ==> Fits(PackBranch(tclip).value, px)
    ensures s.Some? <==> PackBranch(tclip).Some?
    ensures s.Some? ==> |s.value| == Channels(PackBranch(tclip).value.ref)
    ensures s.Some? && !px.FloatPlanes? && HostRange(px) ==>
              forall c | 0 <= c < |s.value| :: 0.0 <= s.value[c] <= 1.0
  {
    match PackBranch(tclip)
    case None => None
    case Some(f) =>
      Some(seq(Channels(f.ref), c requires 0 <= c < Channels(f.ref) => PlaneValue(px, c)))
  }

  /** convert_ushort_sat: round toward zero, then saturate to [0, 65535]. */
  function SatUshort(v: real): (n: int)
    ensures 0 <= n <= 65535
    ensures 0.0 <= v < 65536.0 ==> n == v.Floor
    ensures v < 0.0 ==> n == 0
    ensures v >= 65535.0 ==> n == 65535
  {
    if v < 0.0 then 0 else if v >= 65535.0 then 65535 else v.Floor
  }

  /** convert_ushort without saturation: round toward zero; undefined when the
      truncated value does not fit in 16 bits. */
  function Ushort(v: real): (n: int)
    requires -1.0 < v < 65536.0
    ensures 0 <= n <= 65535
    ensures 0.0 <= v ==> n == v.Floor
  {
    if v < 0.0 then 0 else v.Floor
  }

  /** `y >> CHAR_BIT` and `y & 0xFF` of a 16-bit unsigned word. */
  function HighByte(n: int): int
    requires 0 <= n <= 65535
  {
    n / 256
  }

  function LowByte(n: int): int
    requires 0 <= n <= 65535
  {
    n % 256
  }

  /** A sample scaled to 10 bits and converted to an unsigned 16-bit word: with
      convert_ushort_sat for luma, chroma and YUV, with convert_ushort for RGB. */
  function Word10(v: real, saturate: bool): (n: int)
    requires !saturate ==> -1.0 < v * Max10 < 65536.0
    ensures 0 <= n <= 65535
  {
    if saturate then SatUshort(v * Max10) else Ushort(v * Max10)
  }

  /** A sample scaled to 16 bits with convert_ushort_sat. */
  function Word16(v: real): (n: int)
    ensures 0 <= n <= 65535
  {
    SatUshort(v * Max16)
  }

  /** The 10-bit RGB branch of Unpack uses the non-saturating conversion, so it is
      defined only when every scaled channel truncates into 16 bits. */
  predicate UnpackDefined(tclip: bv32, s: Sample) {
    PackBranch(tclip) == Some(Format(Unsigned, Rgb)) ==>
      forall c | 0 <= c < 3 :: -1.0 < Channel(s, c) * Max10 < 65536.0
  }

  /** nlmUnpack at one pixel. */
  function Unpack(tclip: bv32, s: Sample): (px: Option<HostPixel>)
    requires UnpackDefined(tclip, s)
    ensures px.Some? <==> PackBranch(tclip).Some?
    ensures px.Some? ==> Fits(PackBranch(tclip).value, px.value)
    ensures px.Some? && px.value.BytePlanes? ==> HostRange(px.value)
    ensures px.Some? && px.value.WordPlanes? ==>
              forall c | 0 <= c < |px.value.words| :: 0 <= px.value.words[c] <= 65535
  {
    match PackBranch(tclip)
    case None => None
    case Some(f) =>
      var n := Channels(f.ref);
      match f.kind
      case Unorm =>
        Some(FloatPlanes(seq(n, c requires 0 <= c < n => Channel(s, c))))
      case Unsigned =>
        Some(WordPlanes(seq(n, c requires 0 <= c < n => Word10(Channel(s, c), f.ref != Rgb))))
      case Stacked =>
        var w := seq(n, c requires 0 <= c < n => Word16(Channel(s, c)));
        Some(BytePlanes(seq(n, c requires 0 <= c < n => HighByte(w[c])),
                        seq(n, c requires 0 <= c < n => LowByte(w[c]))))
  }

  /** The step between neighbouring representable values of a sample type. */
  function Quantum(t: ClipType): real {
    match t
    case Unorm => 0.0
    case Unsigned => 1.0 / Max10
    case Stacked => 1.0 / Max16
  }

  /** A 10-bit word survives the scaling to [0, 1] and back. */
  lemma WordRoundTrip(n: int)
    requires 0 <= n <= 1023
    ensures (n as real / Max10) * Max10 == n as real
    ensures SatUshort((n as real / Max10) * Max10) == n
  {
  }

  /** A stacked byte pair survives the scaling to [0, 1] and back, byte by byte. */
  lemma ByteRoundTrip(m: int, l: int)
    requires 0 <= m <= 255 && 0 <= l <= 255
    ensures Word16(Stacked16(m, l)) == 256 * m + l
    ensures HighByte(256 * m + l) == m && LowByte(256 * m + l) == l
  {
  }

  lemma UnpackPackWords(tclip: bv32, px: HostPixel)
    requires PackBranch(tclip).Some? && PackBranch(tclip).value.kind == Unsigned
    requires Fits(PackBranch(tclip).value, px) && HostRange(px)
    ensures UnpackDefined(tclip, Pack(tclip, px).value)
    ensures Unpack(tclip, Pack(tclip, px).value) == Some(px)
  {
    var n := Channels(PackBranch(tclip).value.ref);
    var s := Pack(tclip, px).value;
    forall c | 0 <= c < n
      ensures Channel(s, c) * Max10 == px.words[c] as real
    {
      assert s[c] == px.words[c] as real / Max10;
      WordRoundTrip(px.words[c]);
    }
    assert Unpack(tclip, s).value.words == px.words;
  }

  lemma UnpackPackBytes(tclip: bv32, px: HostPixel)
    requires PackBranch(tclip).Some? && PackBranch(tclip).value.kind == Stacked
    requires Fits(PackBranch(tclip).value, px) && HostRange(px)
    ensures UnpackDefined(tclip, Pack(tclip, px).value)
    ensures Unpack(tclip, Pack(tclip, px).value) == Some(px)
  {
    var n := Channels(PackBranch(tclip).value.ref);
    var s := Pack(tclip, px).value;
    var u := Unpack(tclip, s).value;
    forall c | 0 <= c < n
      ensures u.msb[c] == px.msb[c] && u.lsb[c] == px.lsb[c]
    {
      assert s[c] == Stacked16(px.msb[c], px.lsb[c]);
      ByteRoundTrip(px.msb[c], px.lsb[c]);
    }
    assert u.msb == px.msb;
    assert u.lsb == px.lsb;
  }

  /** Unpacking what Pack produced gives back the host's planes exactly, for
      every format with a branch and every sample the host's depth can hold. */
  lemma UnpackPack(tclip: bv32, px: HostPixel)
    requires PackBranch(tclip).Some?
    requires Fits(PackBranch(tclip).value, px)
    requires HostRange(px)
    ensures UnpackDefined(tclip, Pack(tclip, px).value)
    ensures Unpack(tclip, Pack(tclip, px).value) == Some(px)
  {
    match PackBranch(tclip).value.kind
    case Unorm => {
      assert Unpack(tclip, Pack(tclip, px).value).value.values == px.values;
    }
    case Unsigned => UnpackPackWords(tclip, px);
    case Stacked => UnpackPackBytes(tclip, px);
  }

  /** Truncating v * m and dividing by m again rounds v down by less than 1 / m. */
  lemma ScaledFloor(v: real, m: real)
    requires v >= 0.0 && m > 0.0
    ensures 0 <= (v * m).Floor
    ensures (v * m).Floor as real / m <= v
    ensures v - 1.0 / m < (v * m).Floor as real / m
  {
    var n := (v * m).Floor;
    assert n as real <= v * m < n as real + 1.0;
    DivideBelow(n as real, v, m);
    DivideAbove(n as real, v, m);
  }

  lemma DivideBelow(a: real, v: real, m: real)
    requires m > 0.0 && a <= v * m
    ensures a / m <= v
  {
    assert (v - a / m) * m == v * m - a;
  }

  lemma DivideAbove(a: real, v: real, m: real)
    requires m > 0.0 && v * m < a + 1.0
    ensures v - 1.0 / m < a / m
  {
    assert (a / m + 1.0 / m - v) * m == a + 1.0 - v * m;
  }

  /** Packing an unpacked 10-bit channel gives floor(v * 1023) / 1023. */
  lemma PackUnpackWords(tclip: bv32, s: Sample, c: nat)
    requires PackBranch(tclip).Some? && PackBranch(tclip).value.kind == Unsigned
    requires forall k | 0 <= k < |s| :: 0.0 <= s[k] <= 1.0
    requires c < Channels(PackBranch(tclip).value.ref)
    ensures UnpackDefined(tclip, s)
    ensures Pack(tclip, Unpack(tclip, s).value).value[c] == (Channel(s, c) * Max10).Floor as real / Max10
  {
    assert UnpackDefined(tclip, s) by {
      forall k | 0 <= k < 3
        ensures -1.0 < Channel(s, k) * Max10 < 65536.0
      {
        assert 0.0 <= Channel(s, k) <= 1.0;
      }
    }
    var v := Channel(s, c);
    assert 0.0 <= v <= 1.0;
    var px := Unpack(tclip, s).value;
    assert px.words[c] == (v * Max10).Floor;
  }

  /** Packing an unpacked stacked channel gives floor(v * 65535) / 65535. */
  lemma PackUnpackBytes(tclip: bv32, s: Sample, c: nat)
    requires PackBranch(tclip).Some? && PackBranch(tclip).value.kind == Stacked
    requires forall k | 0 <= k < |s| :: 0.0 <= s[k] <= 1.0
    requires c < Channels(PackBranch(tclip).value.ref)
    ensures UnpackDefined(tclip, s)
    ensures Pack(tclip, Unpack(tclip, s).value).value[c] == (Channel(s, c) * Max16).Floor as real / Max16
  {
    var v := Channel(s, c);
    assert 0.0 <= v <= 1.0;
    var n := (v * Max16).Floor;
    var px := Unpack(tclip, s).value;
    assert px.msb[c] == HighByte(n) && px.lsb[c] == LowByte(n);
    assert HighByte(n) * 256 + LowByte(n) == n;
  }

  /** Packing what Unpack produced loses at most one step of the host's depth,
      rounding down, for internal samples in [0, 1]; unorm planes pass through. */
  lemma PackUnpack(tclip: bv32, s: Sample, c: nat)
    requires PackBranch(tclip).Some?
    requires forall k | 0 <= k < |s| :: 0.0 <= s[k] <= 1.0
    requires c < Channels(PackBranch(tclip).value.ref)
    ensures UnpackDefined(tclip, s)
    ensures Pack(tclip, Unpack(tclip, s).value).value[c] <= Channel(s, c)
    ensures PackBranch(tclip).value.kind == Unorm ==>
              Pack(tclip, Unpack(tclip, s).value).value[c] == Channel(s, c)
    ensures PackBranch(tclip).value.kind != Unorm ==>
              Channel(s, c) - Quantum(PackBranch(tclip).value.kind) < Pack(tclip, Unpack(tclip, s).value).value[c]
  {
    var v := Channel(s, c);
    assert 0.0 <= v <= 1.0;
    match PackBranch(tclip).value.kind
    case Unorm => {}
    case Unsigned => {
      PackUnpackWords(tclip, s, c);
      ScaledFloor(v, Max10);
    }
    case Stacked => {
      PackUnpackBytes(tclip, s, c);
      ScaledFloor(v, Max16);
    }
  }
}

=== FILE: separable.dfy ===
/** nlmHorizontal and nlmVertical over a whole layer (KNLMeansCL/kernel.h:127-197):
    each row, then each column, goes through the tiled line sum; the vertical pass
    then turns the patch sum into a weight. Both read with CLK_ADDRESS_CLAMP, so
    the frame is surrounded by zeros. The two passes together compute the sum over
    the (2s + 1) x (2s + 1) patch. */
module Separable {
  import opened Frames
  import opened Tiles
  import opened Weights

  /** Column x of a plane, 0 where x is outside it. */
  function Column(p: Plane, x: int): (col: seq<real>)
    ensures |col| == |p|
  {
    seq(|p|, y requires 0 <= y < |p| => PlaneAt(p, x, y))
  }

  /** The horizontal window sum at (x, y). */
  function HSum(p: Plane, x: int, y: int, s: nat): real {
    WindowSum(Row(p, y), x, s)
  }

  /** The vertical window sum at (x, y). */
  function VSum(p: Plane, x: int, y: int, s: nat): real {
    WindowSum(Column(p, x), y, s)
  }

  /** The sum of rows lo .. lo + n - 1 of the patch around column x, each row
      summed over columns x - s .. x + s. */
  function PatchRows(p: Plane, x: int, lo: int, n: nat, s: nat): real
    decreases n
  {
    if n == 0 then 0.0 else PatchRows(p, x, lo, n - 1, s) + LineSum(Row(p, lo + n - 1), x - s, 2 * s + 1)
  }

  /** The sum of the plane over the (2s + 1) x (2s + 1) patch centred on (x, y),
      with every pixel outside the frame read as 0. */
  function PatchSum(p: Plane, x: int, y: int, s: nat): real {
    PatchRows(p, x, y - s, 2 * s + 1, s)
  }

  lemma {:induction false} LineSumOfNothing(lo: int, n: nat)
    ensures LineSum([], lo, n) == 0.0
    decreases n
  {
    if n > 0 {
      LineSumOfNothing(lo, n - 1);
    }
  }

  /** A plane holding the horizontal sums of p has, read along a column inside the
      frame, the horizontal sum of p at every row, including the zero rows outside. */
  lemma ColumnOfHorizontal(p: Plane, q: Plane, w: nat, h: nat, s: nat, x: int, y: int)
    requires IsPlane(p, w, h) && IsPlane(q, w, h) && 0 <= x < w
    requires forall y', x' | 0 <= y' < h && 0 <= x' < w :: q[y'][x'] == HSum(p, x', y', s)
    ensures LineAt(Column(q, x), y) == HSum(p, x, y, s)
  {
    if !(0 <= y < h) {
      LineSumOfNothing(x - s, 2 * s + 1);
    }
  }

  lemma {:induction false} ColumnSumIsPatchRows(p: Plane, q: Plane, w: nat, h: nat, s: nat, x: int, lo: int, n: nat)
    requires IsPlane(p, w, h) && IsPlane(q, w, h) && 0 <= x < w
    requires forall y', x' | 0 <= y' < h && 0 <= x' < w :: q[y'][x'] == HSum(p, x', y', s)
    ensures LineSum(Column(q, x), lo, n) == PatchRows(p, x, lo, n, s)
    decreases n
  {
    if n > 0 {
      ColumnSumIsPatchRows(p, q, w, h, s, x, lo, n - 1);
      ColumnOfHorizontal(p, q, w, h, s, x, lo + n - 1);
    }
  }

  /** The vertical window sum of the horizontal window sums is the patch sum: the
      separable filter computes the (2s + 1)^2 box filter with a zero border. */
  lemma VerticalOfHorizontal(p: Plane, q: Plane, w: nat, h: nat, s: nat, x: int, y: int)
    requires IsPlane(p, w, h) && IsPlane(q, w, h) && 0 <= x < w
    requires forall y', x' | 0 <= y' < h && 0 <= x' < w :: q[y'][x'] == HSum(p, x', y', s)
    ensures VSum(q, x, y, s) == PatchSum(p, x, y, s)
  {
    ColumnSumIsPatchRows(p, q, w, h, s, x, y - s, 2 * s + 1);
  }

  /** nlmHorizontal on one layer: each row of the frame through the tiled line sum
      (its local buffer has no padding). Rows past the frame are not written. */
  method HorizontalPass(p: Plane, w: nat, h: nat, block: nat, s: nat) returns (out: Plane)
    requires IsPlane(p, w, h) && 0 < block && s <= block
    ensures IsPlane(out, w, h)
    ensures forall y, x | 0 <= y < h && 0 <= x < w :: out[y][x] == HSum(p, x, y, s)
  {
    out := [];
    var y := 0;
    while y < h
      invariant 0 <= y <= h && |out| == y
      invariant forall y' | 0 <= y' < y :: |out[y']| == w
      invariant forall y', x | 0 <= y' < y && 0 <= x < w :: out[y'][x] == HSum(p, x, y', s)
    {
      var row := SumLine(p[y], block, 0, s);
      out := out + [row];
      y := y + 1;
    }
  }

  /** The tiled line sum down every column of the frame (the local buffer of
      nlmVertical has one slot of padding); result x is column x. */
  method ColumnSums(p: Plane, w: nat, h: nat, block: nat, s: nat) returns (cols: seq<seq<real>>)
    requires IsPlane(p, w, h) && 0 < block && s <= block
    ensures |cols| == w
    ensures forall x | 0 <= x < w :: |cols[x]| == h
    ensures forall x, y | 0 <= x < w && 0 <= y < h :: cols[x][y] == VSum(p, x, y, s)
  {
    cols := [];
    var x := 0;
    while x < w
      invariant 0 <= x <= w && |cols| == x
      invariant forall x' | 0 <= x' < x :: |cols[x']| == h
      invariant forall x', y | 0 <= x' < x && 0 <= y < h :: cols[x'][y] == VSum(p, x', y, s)
    {
      var col := SumLine(Column(p, x), block, 1, s);
      cols := cols + [col];
      x := x + 1;
    }
  }

  /** Row y of the weights of scaled column sums. */
  function WeightRow(cols: seq<seq<real>>, y: nat, w: nat, mode: WeightMode, k: real): (row: seq<real>)
    requires |cols| == w && forall x | 0 <= x < w :: y < |cols[x]|
    ensures |row| == w
    ensures forall x | 0 <= x < w :: row[x] == SumWeight(mode, cols[x][y], k)
  {
    seq(w, x requires 0 <= x < w => SumWeight(mode, cols[x][y], k))
  }

  /** nlmVertical on one layer: the column sums, then at every pixel the weight of
      its sum scaled by k, the value of NLM_H2_INV_NORM (H2InvNorm of the strength
      and radius). */
  method VerticalPass(p: Plane, w: nat, h: nat, block: nat, s: nat,
                      mode: WeightMode, k: real) returns (out: Plane)
    requires IsPlane(p, w, h) && 0 < block && s <= block
    ensures IsPlane(out, w, h)
    ensures forall y, x | 0 <= y < h && 0 <= x < w ::
              out[y][x] == SumWeight(mode, VSum(p, x, y, s), k)
  {
    var cols := ColumnSums(p, w, h, block, s);
    out := seq(h, y requires 0 <= y < h => WeightRow(cols, y, w, mode, k));
    forall y, x | 0 <= y < h && 0 <= x < w
      ensures out[y][x] == SumWeight(mode, VSum(p, x, y, s), k)
    {
      assert out[y] == WeightRow(cols, y, w, mode, k);
    }
  }

  /** The two passes in sequence give every in-frame pixel the weight of its patch sum. */
  method PatchWeights(p: Plane, w: nat, h: nat, hBlock: nat, vBlock: nat, s: nat,
                      mode: WeightMode, k: real) returns (out: Plane)
    requires IsPlane(p, w, h) && 0 < hBlock && 0 < vBlock && s <= hBlock && s <= vBlock
    ensures IsPlane(out, w, h)
    ensures forall y, x | 0 <= y < h && 0 <= x < w ::
              out[y][x] == SumWeight(mode, PatchSum(p, x, y, s), k)
  {
    var sums := HorizontalPass(p, w, h, hBlock, s);
    out := VerticalPass(sums, w, h, vBlock, s, mode, k);
    forall y, x | 0 <= y < h && 0 <= x < w
      ensures out[y][x] == SumWeight(mode, PatchSum(p, x, y, s), k)
    {
      VerticalOfHorizontal(p, sums, w, h, s, x, y);
    }
  }
}

=== FILE: tiles.dfy ===
/** The tiled box sum shared by nlmHorizontal and nlmVertical
    (KNLMeansCL/kernel.h:127-197), along one line: a row for the horizontal pass,
    a column for the vertical one. A work-group of `block` work-items owns
    Result * block consecutive outputs. It stages (Result + 2) * block inputs, from
    one block before its outputs to one block after, into a local buffer, and
    then each output is the sum of the 2s + 1 staged values around it. */
module Tiles {
  import opened Frames

  /** HRZ_RESULT and VRT_RESULT: outputs per work-item. */
  const Result: nat := 3

  /** The sum of the line at columns lo, lo + 1, ..., lo + n - 1, read as 0 outside. */
  function LineSum(line: seq<real>, lo: int, n: nat): real
    decreases n
  {
    if n == 0 then 0.0 else LineSum(line, lo, n - 1) + LineAt(line, lo + n - 1)
  }

  /** The 2s + 1 columns centred on c. */
  function WindowSum(line: seq<real>, c: int, s: nat): real {
    LineSum(line, c - s, 2 * s + 1)
  }

  /** The column staged into buffer slot 0 by group g: the `x` of work-item 0,
      (g * Result - 1) * block. */
  function TileOrigin(g: nat, block: nat): int {
    (g * Result - 1) * block
  }

  /** The column of output i (1 <= i <= Result) of work-item lx of group g. */
  function TileColumn(g: nat, i: int, lx: int, block: nat): int {
    TileOrigin(g, block) + lx + i * block
  }

  /** The i-th staging step of a work-item reads rows 1..Result of the tile first,
      then row 0, then row Result + 1. */
  function StagedRow(j: nat): nat
    requires j < Result + 2
  {
    if j < Result then j + 1 else if j == Result then 0 else Result + 1
  }

  /** The buffer slot of staging step j of work-item lx; it is loaded with the
      column TileOrigin + slot. */
  function StagedSlot(lx: nat, j: nat, block: nat): nat
    requires j < Result + 2
  {
    lx + StagedRow(j) * block
  }

  lemma MulMonotone(a: int, b: int, m: int)
    requires a <= b && m >= 0
    ensures a * m <= b * m
  {
    assert b * m - a * m == (b - a) * m;
  }

  /** Quotient and remainder are unique. */
  lemma LexUnique(q: int, r: int, q': int, r': int, m: int)
    requires m > 0 && 0 <= r < m && 0 <= r' < m
    requires q * m + r == q' * m + r'
    ensures q == q' && r == r'
  {
    if q < q' {
      MulMonotone(q + 1, q', m);
      assert false;
    } else if q' < q {
      MulMonotone(q' + 1, q, m);
      assert false;
    }
  }

  lemma DivMod(k: int, m: int)
    requires m > 0
    ensures k == (k / m) * m + k % m && 0 <= k % m < m
  {
  }

  /** Every slot of the buffer lies in [0, (Result + 2) * block). */
  lemma StagedSlotInRange(lx: nat, j: nat, block: nat)
    requires lx < block && j < Result + 2
    ensures StagedSlot(lx, j, block) < (Result + 2) * block
  {
    MulMonotone(StagedRow(j), Result + 1, block);
  }

  /** Two staging steps write the same slot only if they are the same step of the same work-item. */
  lemma StagedSlotInjective(lx: nat, j: nat, lx': nat, j': nat, block: nat)
    requires lx < block && lx' < block && j < Result + 2 && j' < Result + 2
    requires StagedSlot(lx, j, block) == StagedSlot(lx', j', block)
    ensures lx == lx' && j == j'
  {
    LexUnique(StagedRow(j), lx, StagedRow(j'), lx', block);
  }

  /** Every slot of the buffer is written by some staging step. */
  lemma StagedSlotOnto(k: nat, block: nat) returns (lx: nat, j: nat)
    requires block > 0 && k < (Result + 2) * block
    ensures lx < block && j < Result + 2
    ensures StagedSlot(lx, j, block) == k
  {
    DivMod(k, block);
    var row := k / block;
    lx := k % block;
    if row > Result + 1 {
      MulMonotone(Result + 2, row, block);
      assert false;
    }
    j := if row == 0 then Result else if row == Result + 1 then Result + 1 else row - 1;
    assert StagedRow(j) == row;
  }

  /** The staging steps of work-items before lx, and the first j steps of
      work-item lx, have loaded their slots. */
  ghost predicate StagedUpTo(buf: seq<real>, line: seq<real>, origin: int, block: nat, lx: nat, j: nat) {
    forall l, j' | 0 <= l && 0 <= j' < Result + 2 && (l < lx || (l == lx && j' < j)) ::
      StagedSlot(l, j', block) < |buf| && buf[StagedSlot(l, j', block)] == LineAt(line, origin + StagedSlot(l, j', block))
  }

  /** One staging step keeps every earlier step's slot, since no two steps share a slot. */
  lemma StageStep(buf: seq<real>, line: seq<real>, origin: int, block: nat, lx: nat, j: nat)
    requires lx < block && j < Result + 2 && |buf| >= (Result + 2) * block
    requires StagedUpTo(buf, line, origin, block, lx, j)
    ensures StagedSlot(lx, j, block) < |buf|
    ensures StagedUpTo(buf[StagedSlot(lx, j, block) := LineAt(line, origin + StagedSlot(lx, j, block))],
                       line, origin, block, lx, j + 1)
  {
    var k := StagedSlot(lx, j, block);
    StagedSlotInRange(lx, j, block);
    var buf' := buf[k := LineAt(line, origin + k)];
    forall l, j' | 0 <= l && 0 <= j' < Result + 2 && (l < lx || (l == lx && j' < j + 1))
      ensures StagedSlot(l, j', block) < |buf'|
      ensures buf'[StagedSlot(l, j', block)] == LineAt(line, origin + StagedSlot(l, j', block))
    {
      if StagedSlot(l, j', block) == k {
        StagedSlotInjective(l, j', lx, j, block);
      }
    }
  }

  /** The fill phase of one work-group (before the barrier): every work-item lx,
      in turn, performs its Result + 2 staging steps in the order of the source.
      Distinct steps write distinct slots, so afterwards every slot k holds the
      input column TileOrigin + k. The slots after (Result + 2) * block are
      padding that nothing writes or reads. */
  method StageTile(line: seq<real>, origin: int, block: nat, pad: nat) returns (buffer: seq<real>)
    requires block > 0
    ensures |buffer| == (Result + 2) * block + pad
    ensures forall k | 0 <= k < (Result + 2) * block :: buffer[k] == LineAt(line, origin + k)
  {
    buffer := seq((Result + 2) * block + pad, _ => 0.0);
    var lx := 0;
    while lx < block
      invariant 0 <= lx <= block && |buffer| == (Result + 2) * block + pad
      invariant StagedUpTo(buffer, line, origin, block, lx, 0)
    {
      var j := 0;
      while j < Result + 2
        invariant 0 <= j <= Result + 2 && |buffer| == (Result + 2) * block + pad
        invariant StagedUpTo(buffer, line, origin, block, lx, j)
      {
        StageStep(buffer, line, origin, block, lx, j);
        buffer := buffer[lx + StagedRow(j) * block := LineAt(line, origin + lx + StagedRow(j) * block)];
        j := j + 1;
      }
      lx := lx + 1;
    }
    forall k | 0 <= k < (Result + 2) * block
      ensures buffer[k] == LineAt(line, origin + k)
    {
      var l, j := StagedSlotOnto(k, block);
    }
  }

  /** The columns of group g are the Result * block consecutive columns from g * Result * block. */
  lemma TileColumnClosedForm(g: nat, i: int, lx: int, block: nat)
    ensures TileColumn(g, i, lx, block) == g * (Result * block) + (i - 1) * block + lx
  {
  }

  /** Every column c >= 0 is an output of some group, work-item and output index. */
  lemma TileColumnOnto(c: nat, block: nat) returns (g: nat, i: nat, lx: nat)
    requires block > 0
    ensures 1 <= i <= Result && lx < block
    ensures TileColumn(g, i, lx, block) == c
  {
    DivMod(c, Result * block);
    g := c / (Result * block);
    var rem := c % (Result * block);
    DivMod(rem, block);
    lx := rem % block;
    var row := rem / block;
    if row >= Result {
      MulMonotone(Result, row, block);
      assert false;
    }
    i := row + 1;
    TileColumnClosedForm(g, i, lx, block);
  }

  /** No column is the output of two different (group, work-item, output index)
      triples, so the groups partition the columns and each column is written once. */
  lemma TileColumnInjective(g: nat, i: int, lx: int, g': nat, i': int, lx': int, block: nat)
    requires block > 0
    requires 1 <= i <= Result && 0 <= lx < block && 1 <= i' <= Result && 0 <= lx' < block
    requires TileColumn(g, i, lx, block) == TileColumn(g', i', lx', block)
    ensures g == g' && i == i' && lx == lx'
  {
    TileColumnClosedForm(g, i, lx, block);
    TileColumnClosedForm(g', i', lx', block);
    MulMonotone(i - 1, Result - 1, block);
    MulMonotone(i' - 1, Result - 1, block);
    MulMonotone(0, i - 1, block);
    MulMonotone(0, i' - 1, block);
    LexUnique(g, (i - 1) * block + lx, g', (i' - 1) * block + lx', Result * block);
    LexUnique(i - 1, lx, i' - 1, lx', block);
  }

  /** When the patch radius is at most the block width, every buffer read of an
      output's window falls in the staged part of the buffer and reads the input
      column offset by j from the output's column. */
  lemma WindowReadsStaged(g: nat, i: int, lx: int, j: int, s: nat, block: nat)
    requires 0 < block && s <= block
    requires 1 <= i <= Result && 0 <= lx < block && -(s as int) <= j <= s
    ensures 0 <= lx + i * block + j < (Result + 2) * block
    ensures TileOrigin(g, block) + (lx + i * block + j) == TileColumn(g, i, lx, block) + j
  {
    MulMonotone(1, i, block);
    MulMonotone(i, Result, block);
  }

  lemma TileColumnMonotone(g: nat, i: int, i': int, lx: int, block: nat)
    requires i <= i'
    ensures TileColumn(g, i, lx, block) <= TileColumn(g, i', lx, block)
  {
    MulMonotone(i, i', block);
  }

  /** The sum one work-item computes for its output at buffer slot `slot`
      (lx + i * block): the 2s + 1 staged values around it, which are the window
      of the output column TileOrigin + slot. */
  method WindowFromBuffer(line: seq<real>, buffer: seq<real>, origin: int, slot: int, s: nat) returns (sum: real)
    requires s <= slot && slot + s < |buffer|
    requires forall k | 0 <= k <= slot + s && slot - s <= k :: buffer[k] == LineAt(line, origin + k)
    ensures sum == WindowSum(line, origin + slot, s)
  {
    sum := 0.0;
    var j: int := -(s as int);
    while j <= s
      invariant -(s as int) <= j <= s + 1
      invariant sum == LineSum(line, origin + slot - s, j + s)
    {
      sum := sum + buffer[slot + j];
      j := j + 1;
    }
  }

  /** Outputs i' of work-items before lx, and outputs before i of work-item lx,
      hold their window sums wherever they fall inside the line. */
  ghost predicate ProducedUpTo(out: seq<real>, line: seq<real>, g: nat, block: nat, s: nat, lx: nat, i: nat) {
    |out| == |line| &&
    forall l, i' | 1 <= i' <= Result && 0 <= TileColumn(g, i', l, block) < |line| && (0 <= l < lx || (l == lx && i' < i)) ::
      out[TileColumn(g, i', l, block)] == WindowSum(line, TileColumn(g, i', l, block), s)
  }

  /** Outside the columns of group g, out still holds what result held. */
  ghost predicate OthersKept(out: seq<real>, result: seq<real>, g: nat, block: nat) {
    |out| == |result| &&
    forall c | 0 <= c < |result| && !(g * (Result * block) <= c < (g + 1) * (Result * block)) :: out[c] == result[c]
  }

  /** Writing one output of the group keeps the earlier outputs, which sit at other
      columns, and writes inside the group's columns. */
  lemma ProduceStep(out: seq<real>, result: seq<real>, line: seq<real>, g: nat, block: nat, s: nat,
                    lx: nat, i: nat, sum: real)
    requires 0 < block && lx < block && 1 <= i <= Result
    requires 0 <= TileColumn(g, i, lx, block) < |line|
    requires sum == WindowSum(line, TileColumn(g, i, lx, block), s)
    requires ProducedUpTo(out, line, g, block, s, lx, i) && OthersKept(out, result, g, block)
    ensures ProducedUpTo(out[TileColumn(g, i, lx, block) := sum], line, g, block, s, lx, i + 1)
    ensures OthersKept(out[TileColumn(g, i, lx, block) := sum], result, g, block)
  {
    var col := TileColumn(g, i, lx, block);
    var out' := out[col := sum];
    TileColumnClosedForm(g, i, lx, block);
    MulMonotone(i - 1, Result - 1, block);
    MulMonotone(0, i - 1, block);
    assert g * (Result * block) <= col < (g + 1) * (Result * block);
    forall l, i' | 1 <= i' <= Result && 0 <= TileColumn(g, i', l, block) < |line| && (0 <= l < lx || (l == lx && i' < i + 1))
      ensures out'[TileColumn(g, i', l, block)] == WindowSum(line, TileColumn(g, i', l, block), s)
    {
      if TileColumn(g, i', l, block) == col {
        TileColumnInjective(g, i', l, g, i, lx, block);
      }
    }
  }

  /** A work-item that stops at output i, because i is past Result or its column
      past the line, has produced every output that falls inside the line. */
  lemma NextWorkItem(out: seq<real>, line: seq<real>, g: nat, block: nat, s: nat, lx: nat, i: nat)
    requires 1 <= i <= Result + 1
    requires i <= Result ==> TileColumn(g, i, lx, block) >= |line|
    requires ProducedUpTo(out, line, g, block, s, lx, i)
    ensures ProducedUpTo(out, line, g, block, s, lx + 1, 1)
  {
    forall i' | i <= i' <= Result
      ensures TileColumn(g, i', lx, block) >= |line|
    {
      TileColumnMonotone(g, i, i', lx, block);
    }
  }

  /** Once every work-item has run, every column of the group inside the line has
      its window sum. */
  lemma GroupCovered(out: seq<real>, line: seq<real>, g: nat, block: nat, s: nat)
    requires 0 < block && ProducedUpTo(out, line, g, block, s, block, 1)
    ensures forall c | g * (Result * block) <= c < (g + 1) * (Result * block) && 0 <= c < |line| ::
              out[c] == WindowSum(line, c, s)
  {
    var start := g * (Result * block);
    forall c | start <= c < start + Result * block && 0 <= c < |line|
      ensures out[c] == WindowSum(line, c, s)
    {
      var rem := c - start;
      DivMod(rem, block);
      var row := rem / block;
      if row >= Result {
        MulMonotone(Result, row, block);
        assert false;
      }
      TileColumnClosedForm(g, row + 1, rem % block, block);
      assert TileColumn(g, row + 1, rem % block, block) == c;
    }
  }

  /** Before output i of work-item lx is summed, the window around its slot lies
      in the staged part of the buffer. */
  lemma WindowReady(line: seq<real>, buffer: seq<real>, g: nat, block: nat, s: nat, lx: nat, i: nat)
    requires 0 < block && s <= block && lx < block && 1 <= i <= Result
    requires |buffer| >= (Result + 2) * block
    requires forall k | 0 <= k < (Result + 2) * block :: buffer[k] == LineAt(line, TileOrigin(g, block) + k)
    ensures s <= lx + i * block && lx + i * block + s < |buffer|
    ensures forall k | 0 <= k <= lx + i * block + s && lx + i * block - s <= k ::
              buffer[k] == LineAt(line, TileOrigin(g, block) + k)
    ensures TileOrigin(g, block) + lx + i * block == TileColumn(g, i, lx, block)
  {
    WindowReadsStaged(g, i, lx, -(s as int), s, block);
    WindowReadsStaged(g, i, lx, s, s, block);
  }

  /** The read phase of group g (after the barrier): each work-item lx, in turn,
      produces its outputs i = 1, ..., Result and returns at the first one past the
      end of the line. Afterwards every column of the group inside the line holds
      its window sum, and no other column has changed. */
  method GroupOutputs(line: seq<real>, buffer: seq<real>, g: nat, block: nat, s: nat, result: seq<real>)
    returns (out: seq<real>)
    requires 0 < block && s <= block
    requires |result| == |line|
    requires |buffer| >= (Result + 2) * block
    requires forall k | 0 <= k < (Result + 2) * block :: buffer[k] == LineAt(line, TileOrigin(g, block) + k)
    ensures |out| == |result|
    ensures forall c | 0 <= c < |line| && !(g * (Result * block) <= c < (g + 1) * (Result * block)) ::
              out[c] == result[c]
    ensures forall c | g * (Result * block) <= c < (g + 1) * (Result * block) && 0 <= c < |line| ::
              out[c] == WindowSum(line, c, s)
  {
    out := result;
    var lx := 0;
    while lx < block
      invariant 0 <= lx <= block
      invariant ProducedUpTo(out, line, g, block, s, lx, 1) && OthersKept(out, result, g, block)
    {
      out := WorkItemOutputs(line, buffer, g, block, s, lx, result, out);
      lx := lx + 1;
    }
    GroupCovered(out, line, g, block, s);
  }

  /** The read phase of work-item lx of group g: outputs i = 1, ..., Result at
      columns x + i * block, returning at the first one past the end of the line. */
  method WorkItemOutputs(line: seq<real>, buffer: seq<real>, g: nat, block: nat, s: nat, lx: nat,
                         result: seq<real>, before: seq<real>) returns (out: seq<real>)
    requires 0 < block && s <= block && lx < block
    requires |buffer| >= (Result + 2) * block
    requires forall k | 0 <= k < (Result + 2) * block :: buffer[k] == LineAt(line, TileOrigin(g, block) + k)
    requires ProducedUpTo(before, line, g, block, s, lx, 1) && OthersKept(before, result, g, block)
    ensures ProducedUpTo(out, line, g, block, s, lx + 1, 1) && OthersKept(out, result, g, block)
  {
    var origin := TileOrigin(g, block);
    var x := origin + lx;
    out := before;
    var i := 1;
    while i < 1 + Result && x + i * block < |line|
      invariant 1 <= i <= 1 + Result
      invariant ProducedUpTo(out, line, g, block, s, lx, i) && OthersKept(out, result, g, block)
    {
      WindowReady(line, buffer, g, block, s, lx, i);
      var sum := WindowFromBuffer(line, buffer, origin, lx + i * block, s);
      ProduceStep(out, result, line, g, block, s, lx, i, sum);
      out := out[x + i * block := sum];
      i := i + 1;
    }
    NextWorkItem(out, line, g, block, s, lx, i);
  }

  /** The 2s + 1 windowed sums of a whole line, computed group by group as the
      kernel does: stage each tile, then produce its outputs. */
  method SumLine(line: seq<real>, block: nat, pad: nat, s: nat) returns (out: seq<real>)
    requires 0 < block && s <= block
    ensures |out| == |line|
    ensures forall c | 0 <= c < |line| :: out[c] == WindowSum(line, c, s)
  {
    out := seq(|line|, _ => 0.0);
    var g: nat := 0;
    var start := 0;
    while start < |line|
      invariant start == g * (Result * block) && |out| == |line|
      invariant forall c | 0 <= c < |line| && c < start :: out[c] == WindowSum(line, c, s)
    {
      var buffer := StageTile(line, TileOrigin(g, block), block, pad);
      out := GroupOutputs(line, buffer, g, block, s, out);
      start := start + Result * block;
      g := g + 1;
    }
  }
}

=== FILE: weights.dfy ===
/** The weighting functions nlmVertical applies to a patch distance
    (KNLMeansCL/kernel.h:67-69, 185-194). */
module Weights {

  /** NLM_NORM: 255 squared. */
  const Norm: real := 255.0 * 255.0

  /** The bisquare settings of NLM_WMODE; the Welsch setting, native_exp(-t), is not
      part of this model. */
  datatype WeightMode = Bisquare1 | Bisquare2 | Bisquare8

  /** NLM_S_SIZE: the number of pixels in a patch of radius s. */
  function PatchArea(s: nat): nat {
    (2 * s + 1) * (2 * s + 1)
  }

  /** NLM_H2_INV_NORM: the factor that scales a patch sum before weighting, for the
      filter strength NLM_H. */
  function H2InvNorm(strength: real, s: nat): (k: real)
    requires strength != 0.0
    ensures k > 0.0
  {
    assert strength * strength > 0.0;
    assert (strength * strength) * (PatchArea(s) as real) > 0.0;
    Norm / (strength * strength * PatchArea(s) as real)
  }

  /** fdim(a, b): the positive difference a - b, and +0 when a <= b. */
  function Fdim(a: real, b: real): (d: real)
    ensures d >= 0.0 && d >= a - b
    ensures d == 0.0 || d == a - b
  {
    if a > b then a - b else 0.0
  }

  /** pown(b, n). */
  function Pow(b: real, n: nat): real
    decreases n
  {
    if n == 0 then 1.0 else b * Pow(b, n - 1)
  }

  /** The power pown applies to fdim(1, t): 1 (fdim alone), 2 or 8. */
  function Exponent(mode: WeightMode): nat {
    match mode
    case Bisquare1 => 1
    case Bisquare2 => 2
    case Bisquare8 => 8
  }

  /** The weight of a scaled patch distance t = sum * NLM_H2_INV_NORM. */
  function Weight(mode: WeightMode, t: real): real {
    Pow(Fdim(1.0, t), Exponent(mode))
  }

  /** The weight nlmVertical stores for a patch sum: the sum scaled by k, the value
      of NLM_H2_INV_NORM, then weighted. */
  function SumWeight(mode: WeightMode, sum: real, k: real): real {
    Weight(mode, sum * k)
  }

  lemma ScaleMonotone(a: real, b: real, c: real)
    requires a <= b && c >= 0.0
    ensures a * c <= b * c
  {
    assert b * c - a * c == (b - a) * c;
  }

  lemma {:induction false} PowUnit(b: real, n: nat)
    requires 0.0 <= b <= 1.0
    ensures 0.0 <= Pow(b, n) <= 1.0
    decreases n
  {
    if n > 0 {
      var p := Pow(b, n - 1);
      PowUnit(b, n - 1);
      ScaleMonotone(0.0, b, p);
      ScaleMonotone(b, 1.0, p);
      assert 0.0 * p == 0.0 && 1.0 * p == p;
      assert b * p <= p;
      assert p <= 1.0;
      assert Pow(b, n) == b * p;
    }
  }

  lemma {:induction false} PowMonotone(a: real, b: real, n: nat)
    requires 0.0 <= a <= b
    ensures 0.0 <= Pow(a, n) <= Pow(b, n)
    decreases n
  {
    if n > 0 {
      PowMonotone(a, b, n - 1);
      ScaleMonotone(0.0, a, Pow(a, n - 1));
      ScaleMonotone(Pow(a, n - 1), Pow(b, n - 1), a);
      ScaleMonotone(a, b, Pow(b, n - 1));
    }
  }

  lemma {:induction false} PowPositive(b: real, n: nat)
    requires b > 0.0
    ensures Pow(b, n) > 0.0
    decreases n
  {
    if n > 0 {
      PowPositive(b, n - 1);
      assert b * Pow(b, n - 1) > 0.0;
    }
  }

  /** For a non-negative patch sum and a positive scale (NLM_H2_INV_NORM is one,
      by H2InvNorm), every bisquare weight lies in [0, 1]. */
  lemma BisquareBounds(mode: WeightMode, sum: real, k: real)
    requires k > 0.0 && sum >= 0.0
    ensures 0.0 <= SumWeight(mode, sum, k) <= 1.0
  {
    ScaleMonotone(0.0, sum, k);
    PowUnit(Fdim(1.0, sum * k), Exponent(mode));
  }

  lemma {:induction false} OnePow(n: nat)
    ensures Pow(1.0, n) == 1.0
    decreases n
  {
    if n > 0 {
      OnePow(n - 1);
    }
  }

  /** Identical patches (sum 0) get the full weight 1. */
  lemma BisquareAtZero(mode: WeightMode, k: real)
    ensures SumWeight(mode, 0.0, k) == 1.0
  {
    OnePow(Exponent(mode));
  }

  /** The bisquare weight cuts off: it is 0 exactly when the scaled distance
      reaches 1. */
  lemma BisquareCutoff(mode: WeightMode, t: real)
    ensures Weight(mode, t) == 0.0 <==> t >= 1.0
  {
    var n := Exponent(mode);
    if t < 1.0 {
      PowPositive(1.0 - t, n);
    } else {
      assert Fdim(1.0, t) == 0.0;
      assert Pow(0.0, n) == 0.0 * Pow(0.0, n - 1);
    }
  }

  lemma BisquareNonIncreasing(mode: WeightMode, t: real, t': real)
    requires t <= t'
    ensures Weight(mode, t') <= Weight(mode, t)
  {
    PowMonotone(Fdim(1.0, t'), Fdim(1.0, t), Exponent(mode));
  }

  /** With a positive scale, a larger patch sum never gets a larger bisquare weight. */
  lemma BisquareMonotone(mode: WeightMode, sum: real, sum': real, k: real)
    requires k > 0.0 && sum <= sum'
    ensures SumWeight(mode, sum', k) <= SumWeight(mode, sum, k)
  {
    ScaleMonotone(sum, sum', k);
    BisquareNonIncreasing(mode, sum * k, sum' * k);
  }
}

=== FILE: wrappers.dfy ===
/** The optional-value datatype used for results that a kernel does not produce
    (a format without a branch, a division whose denominator is zero). */
module Wrappers {

  datatype Option<+T> = None | Some(value: T)

}
